=== FILE: README.md ===
# C++ class extraction to PlantUML, modelled in Dafny

This project models the text-processing core of `uml_generate.py`. That core turns C++ source text into a PlantUML class diagram. It does so in four parts:

- `parse_cpp_classes` finds every `class`/`struct` header with a regular expression. It cuts each body at the first `};` after the header's `{`. It then walks the body's member-pattern matches, keeping an access level that starts at `private` for a class and at `public` for a struct; each visibility marker replaces it.
- `strip_template`, `is_valid_identifier` and `is_valid_member` normalise names and decide what may be drawn.
- `generate_plantuml` writes the diagram lines:
  - `@startuml`;
  - for each record whose name is valid: `class Name {`, one `    <glyph> <member>` line per valid member, `}`, and one `Base <|-- Name` edge per valid base;
  - `@enduml`.

  It then joins the lines with newlines.
- `generate_cpp_uml_from_path` parses every file and renders all the records together. Here it is modelled over a list of already-read texts.

Files and modules:

- `text.dfy` (`Text`) holds the string toolkit:
  - character classes;
  - `SkipWhile`, a maximal run;
  - `FindChar`;
  - `Strip`, which is `str.strip`;
  - `Split` and `Join`, for `str.split` with one separator and for `str.join`, with their round trip;
  - `LastWord`, which is `str.split(sep)[-1]`.
- `normalize.dfy` (`Normalize`): the normaliser and the two validators.
- `scanner.dfy` (`Scanner`):
  - the header pattern `(class|struct)\s+(\w+)(\s*:\s*([^{]+))?\s*{`, as a hand-written matcher at one position;
  - `finditer` over it;
  - the body cut.
- `classifier.dfy` (`Classifier`):
  - the member pattern `(public|private|protected):|([\w:<>,~]+\s+[\w:]+\s*(\([^)]*\))?;)` as a matcher;
  - `finditer` over it;
  - the access fold.
- `parser.dfy` (`Parser`): `parse_cpp_classes`.
- `render.dfy` (`Render`):
  - `generate_plantuml`;
  - an abstract diagram of blocks, each holding entries and bases;
  - a line decoder that reads a generated diagram back.
- `pipeline.dfy` (`Pipeline`): the aggregation over many texts.
- `examples.dfy` (`Examples`): worked examples on concrete texts.

Each matcher has a declarative partner, a "shape" predicate that says what a match looks like. The matcher is proved sound and complete against it. Regular-expression backtracking is resolved by hand:

- The keyword's whitespace run and the name run are maximal.
- The inheritance clause runs from the first non-space after the colon to the first `{`. When that `{` follows the whitespace directly, the clause is the single whitespace character the `\s*` gives back. When the `{` follows the colon directly, the optional group fails, and the plain `\s*{` cannot match the colon either, so the whole header fails and no record is made.
- In the member pattern the marker alternative is tried first, and the type, space and name runs are maximal. An optional parameter list is closed by the first `)`, and `;` must follow it at once.

Scanning follows `finditer`: after a match it resumes at the match's end, and after a failure one position further on. There are no word boundaries. So `subclass X {` is a header, and `nonpublic:` is a `public:` marker.

The renderer's partner is the decoder `ReadDiagram`. Reading the lines of any generated diagram gives back the abstract diagram `Diagram(rs)`: the records with valid names, in order, each with its valid members (glyph and text) and its valid bases. Splitting the generated text at newlines gives the same result, because no generated line holds a newline.

Behaviour of the code that the model keeps:

- The block line is `class Name {` for structs too: line 99 chooses `class` on both branches.
- A member with a parameter list is never drawn. Its `(` fails `is_valid_member`, so only field-like declarations appear.
- Every parsed class is drawn. A parsed name is a non-empty run of word characters, so the normaliser leaves it unchanged and the validator accepts it.
- The clause is split at every comma before normalisation, commas inside a template argument list included. For a one-level list such as `public Base<int, float>`, neither piece yields a valid base, so no edge is drawn (`Examples.CommaTemplateNoEdge`). When a nested `<…>` closes inside a piece, that piece can still yield a base, and possibly not the intended one. In `public Base<Foo<int>, float>` the span `<Foo<int>` ends at the first `>`, leaving `Base`, so `Base <|-- D` is drawn (`Examples.NestedTemplateEdge`).

Two consequences of the patterns that a reader might not expect:

- When no `};` follows a header, the body is empty, not the rest of the text (uml_generate.py:47-48). `Parser.UnclosedBodyNoMembers` states this.
- `class Foo<T> { int a; };` gives no record. The header pattern needs whitespace, `:` or `{` right after the name (uml_generate.py:39). `Examples.TemplateClassNotParsed` states this.

## Model

| member | source | states |
|---|---|---|
| Text.Strip | uml_generate.py:110 | the result occurs in the input with only whitespace before and after it; it is empty exactly when the input is all whitespace, and otherwise starts and ends with a non-space |
| Text.StripAround | uml_generate.py:110 | whitespace, then a core whose first and last characters are not whitespace, then whitespace, strips to exactly that core |
| Text.Split | uml_generate.py:109-110 | splitting gives at least one piece, and no piece holds the separator |
| Text.JoinSplit | uml_generate.py:115 | joining the pieces of a split with the same separator gives back the input |
| Text.SplitJoin | uml_generate.py:115 | splitting a join of pieces free of the separator gives back the pieces |
| Text.SplitLast | uml_generate.py:110 | the last piece of a split is the text after the last separator, or the whole text when there is none |
| Text.LastWord | uml_generate.py:110 | the last word is the text from a position at the start or just after a separator, and holds no separator |
| Text.LastWordUnique | uml_generate.py:110 | a text has only one such position, so its last word is unique |
| Normalize.CloseAngle | uml_generate.py:66 | the `>` that closes a non-greedy `<.*?>` is the first `>`, with no newline before it; with none found, every `>` has a newline before it |
| Normalize.StripTemplate | uml_generate.py:64-66 | the normaliser never lengthens a name and leaves a name without `<` unchanged |
| Normalize.IsValidIdentifier | uml_generate.py:68-78 | a name is accepted iff it is non-empty and every character is a word character or `:` |
| Normalize.IsValidMember | uml_generate.py:80-90 | a member is accepted iff it is non-empty and every character is a word character, `:`, `;` or a space |
| Normalize.IdentifierIsNormal | uml_generate.py:64-78 | a non-empty name of identifier characters is unchanged by the normaliser and accepted |
| Normalize.MemberWithForeignCharRejected | uml_generate.py:80-90 | a member holding `(`, `)`, `<`, `>`, `,`, `~`, a tab or a newline is rejected |
| Normalize.CloseAngleFirst | uml_generate.py:66 | the span closes at the first `>` when nothing before it is `>` or a newline |
| Normalize.StripTemplateRemovesSpan | uml_generate.py:64-66 | in `x<y>z` with no `<` in `x` and no `>` or newline in `y`, the span is removed and `x` kept |
| Normalize.StripTemplateSubsequence | uml_generate.py:66 | the result is a subsequence of the input: characters are only removed |
| Normalize.SpanFreeUnchanged | uml_generate.py:66 | a name holding no removable span is left unchanged |
| Normalize.OpenAngleStaysOpen | uml_generate.py:66 | text with no closing `>` for a `<` still has none after normalisation |
| Normalize.StripTemplateSpanFree | uml_generate.py:66 | the result holds no removable span |
| Normalize.StripTemplateIdempotent | uml_generate.py:64-66 | normalising twice gives the same as normalising once |
| Normalize.StripTemplateExample | uml_generate.py:65 | `Foo<Bar>` becomes `Foo` |
| Scanner.ClauseAt | uml_generate.py:39 | a matched inheritance group is non-empty and ends just after a `{` |
| Scanner.RestAt | uml_generate.py:39 | what follows the name, when it matches, ends just after a `{` |
| Scanner.MatchHeaderAt | uml_generate.py:39 | a header match starts at the given position, ends just after a `{`, and has a non-empty name of word characters |
| Scanner.ClauseSound | uml_generate.py:39 | a matched inheritance group has the declared shape: whitespace, then a clause free of `{`, then `{` |
| Scanner.ClauseComplete | uml_generate.py:39 | any text of that shape is matched, with that clause and end |
| Scanner.RestSound | uml_generate.py:39 | a match after the name is whitespace and `{`, or whitespace, `:` and a clause |
| Scanner.RestComplete | uml_generate.py:39 | any text of either shape after the name is matched with that clause and end |
| Scanner.RestAfterColon | uml_generate.py:39 | whitespace, a colon and a clause-shaped text give that clause |
| Scanner.MatchHeaderSound | uml_generate.py:39 | a header match is a keyword, whitespace, a maximal word-run name and the rest |
| Scanner.MatchHeaderComplete | uml_generate.py:39 | text of header shape is matched with exactly that header |
| Scanner.KeywordOfShape | uml_generate.py:39 | a header-shaped match reports the keyword found at its start |
| Scanner.NameOfShape | uml_generate.py:39 | in a header-shaped match, the whitespace run ends where the name starts, and the name run ends just after the name |
| Scanner.ScanHeaders | uml_generate.py:42 | every reported header is a match at its start, lying inside the scanned suffix |
| Scanner.ScanHeadersOrdered | uml_generate.py:42 | headers are reported left to right without overlap: each one ends before the next one starts |
| Scanner.ScanHeadersComplete | uml_generate.py:42 | every position where the header pattern matches is a reported header's start or lies inside one |
| Scanner.NoKeywordNoHeaders | uml_generate.py:42 | text where neither keyword occurs has no headers |
| Scanner.NoMatchNoHeaders | uml_generate.py:42 | where the header pattern matches at no position from some point on, no header is reported from there |
| Scanner.FindClose | uml_generate.py:47 | the search finds the first `};` at or after the start, or reports that there is none |
| Scanner.BodyAt | uml_generate.py:46-48 | the body runs from just after `{` to the first `};`, or is empty when there is none |
| Scanner.ScanDeclarations | uml_generate.py:42-48 | one declaration per header, in order, each with its body |
| Classifier.TailEndAt | uml_generate.py:40 | a matched declaration tail ends just after a `;` |
| Classifier.FieldEndAt | uml_generate.py:40 | a field match starts with a type character and ends just after a `;` |
| Classifier.MatchMemberAt | uml_generate.py:40 | a member match starts at the given position, and a field match's text is exactly the matched slice |
| Classifier.MarkerFirst | uml_generate.py:40 | a visibility marker wins over any field that could start at the same place |
| Classifier.MarkerSound | uml_generate.py:40 | a reported marker has that marker's text at its start, and the match ends right after it |
| Classifier.FieldSound | uml_generate.py:40 | a field match has no marker at its start, and splits into type run, whitespace, name run, whitespace and tail |
| Classifier.TailSound | uml_generate.py:40 | a matched tail is `;`, or a parameter list closed by its first `)` and then `;` |
| Classifier.TailComplete | uml_generate.py:40 | any tail of that shape is matched with that end |
| Classifier.FieldComplete | uml_generate.py:40 | text of field shape with no marker at its start is matched as that field |
| Classifier.ScanMembers | uml_generate.py:51 | every reported member match is a match at its start, lying inside the scanned suffix |
| Classifier.ScanMembersOrdered | uml_generate.py:51 | member matches are reported left to right without overlap: each one ends before the next one starts |
| Classifier.ScanMembersComplete | uml_generate.py:51 | every position where the member pattern matches is a reported match's start or lies inside one |
| Classifier.Tag | uml_generate.py:51-55 | the fold records one member per field match |
| Classifier.Classify | uml_generate.py:49-55 | a body yields one member per field match in it |
| Classifier.DefaultAccess | uml_generate.py:50 | the initial access is `private` exactly for a class, `public` for a struct, and never `protected` |
| Classifier.LatestAccessAfterMarker | uml_generate.py:52-53 | after a marker, the access in force depends only on that marker and what follows it |
| Classifier.LatestAccessAfterField | uml_generate.py:54-55 | a field does not change the access in force |
| Classifier.TagLatestAccess | uml_generate.py:51-55 | the member of a field match is its stripped text with the access of the last earlier marker, or the initial access |
| Classifier.CountFieldsPrefix | uml_generate.py:51-55 | a field match has a member of its own: the count of fields before it is below the total |
| Classifier.NoMarkerKeepsInitial | uml_generate.py:50-55 | without markers every member keeps the initial access |
| Classifier.FieldStripUnchanged | uml_generate.py:55 | stripping a field match's text leaves it unchanged |
| Classifier.ClassifyTagsField | uml_generate.py:50-55 | each field match yields its text tagged with the last earlier marker's access, or `private` for a class and `public` for a struct |
| Classifier.TagFromField | uml_generate.py:51-55 | every recorded member is the stripped text of some field match |
| Classifier.ClassifyMemberIsField | uml_generate.py:51-55 | every member of a body is the text of a field-shaped occurrence in that body |
| Classifier.FieldMatchIsField | uml_generate.py:40 | a field match's stripped text is a field-shaped occurrence in the body |
| Classifier.CountFieldsMonotone | uml_generate.py:51-55 | an earlier field match comes before a later one among the members |
| Classifier.ClassifyKeepsOrder | uml_generate.py:51-55 | members appear in source order: earlier field matches get earlier positions and end before later ones start |
| Parser.ParseCppClasses | uml_generate.py:37-62 | one record per header match, in order, with the header's kind, name and clause, and the members of the body the first `};` delimits |
| Parser.ParsedNamesRenderable | uml_generate.py:39-44 | every parsed name is unchanged by the normaliser and accepted by the validator |
| Parser.ParsedInheritNonEmpty | uml_generate.py:39-45 | a parsed inheritance clause is non-empty and free of `{` |
| Parser.ParseFindsEveryHeader | uml_generate.py:42-61 | every header occurrence is a reported record's header or lies inside a reported header's span; a header is missed only when another header's clause covers it |
| Parser.NoKeywordNoClasses | uml_generate.py:42-62 | text without `class` or `struct` gives no records |
| Parser.UnclosedBodyNoMembers | uml_generate.py:46-48 | with no `};` after the header, the record has no members and nothing fails |
| Render.GeneratePlantUml | uml_generate.py:94-114 | the lines start with `@startuml` and end with `@enduml` |
| Render.GeneratePlantUmlText | uml_generate.py:115 | splitting the text at newlines gives back exactly the diagram lines |
| Render.ClassLines | uml_generate.py:96-113 | a record whose normalised name is invalid draws nothing; otherwise its lines are those of its block: the opening line, its valid members' entries, `}`, and its valid bases' edges |
| Render.Entries | uml_generate.py:102-106 | the drawn entries are valid members, each with a glyph from `+`, `-`, `#` |
| Render.BaseName | uml_generate.py:110-111 | the base of a piece is the last space-separated word of the stripped piece, normalised |
| Render.DrawnBase | uml_generate.py:110-113 | a piece contributes at most one base, and only a valid one |
| Render.BasesOf | uml_generate.py:108-113 | the drawn bases are valid identifiers, at most one per piece |
| Render.SplitSpecifier | uml_generate.py:110 | `spec base` with no other space splits at its one space into exactly the specifier and the base |
| Render.BaseNameParts | uml_generate.py:110-111 | when a piece strips to one specifier and one word, the base is that word, normalised: the specifier is dropped |
| Render.BaseOfPiece | uml_generate.py:110-111 | a piece made of whitespace, an access specifier, a space, an identifier and whitespace names exactly that identifier, which passes validation |
| Render.BaseNameWord | uml_generate.py:110-111 | when a piece strips to one word, the base is that word, normalised |
| Render.Bases | uml_generate.py:108-113 | the drawn bases of a clause are valid identifiers |
| Render.Diagram | uml_generate.py:95-113 | the drawn blocks are at most as many as the records, and well formed |
| Render.MemberLinesEncode | uml_generate.py:102-106 | the member lines are the entry lines of the drawn entries |
| Render.EdgeLinesEncode | uml_generate.py:108-113 | the edge lines are the lines of the drawn bases |
| Render.InheritLinesEncode | uml_generate.py:108-113 | the edges of a clause, absent, empty or not, are the edge lines of its bases |
| Render.RecordLinesEncode | uml_generate.py:95-113 | the lines between the delimiters encode the abstract diagram |
| Render.ParseEntryLine | uml_generate.py:106 | a member line reads back as its glyph and text |
| Render.ReadEntriesEncode | uml_generate.py:102-107 | the member lines up to `}` read back as the entries, leaving the rest |
| Render.ParseEdgeLine | uml_generate.py:113 | an edge line reads back as its base |
| Render.ParseEdgeOpen | uml_generate.py:101 | a block's opening line is never read as an edge |
| Render.ReadBasesEncode | uml_generate.py:108-113 | the edge lines read back as the bases, leaving the rest |
| Render.ParseOpenLine | uml_generate.py:101 | an opening line reads back as its name |
| Render.DecodeEncode | uml_generate.py:95-113 | decoding the lines of well-formed blocks gives back the blocks |
| Render.ReadGenerated | uml_generate.py:92-115 | reading the generated lines gives back the diagram of the records |
| Render.ValidIdentifierNoNewline | uml_generate.py:68-78 | an accepted name holds no newline |
| Render.ValidMemberNoNewline | uml_generate.py:80-90 | an accepted member holds no newline |
| Render.EntryLinesNoNewline | uml_generate.py:102-106 | member lines hold no newline |
| Render.BaseLinesNoNewline | uml_generate.py:108-113 | edge lines hold no newline |
| Render.EncodeNoNewline | uml_generate.py:95-113 | the lines of well-formed blocks hold no newline |
| Render.GeneratedNoNewline | uml_generate.py:94-114 | no generated line holds a newline |
| Render.ReadGeneratedText | uml_generate.py:115 | splitting the joined text at newlines and reading it gives back the diagram of the records |
| Render.DiagramKeepsNormal | uml_generate.py:95-113 | when every name is normal and valid, record `i` is drawn as block `i` with its valid members and bases |
| Render.NoValidNameEmptyDiagram | uml_generate.py:94-115 | with no valid name, the output is exactly `@startuml` and `@enduml`, and the text is `@startuml\n@enduml` |
| Render.DelimitersText | uml_generate.py:115 | the two delimiter lines join to `@startuml\n@enduml` |
| Render.NoValidNameNoBlocks | uml_generate.py:95-98 | records without a valid normalised name draw nothing |
| Render.MethodNeverDrawn | uml_generate.py:103-104 | a member with a parameter list is never drawn |
| Pipeline.ParseAll | uml_generate.py:120-126 | every aggregated record comes from one of the texts |
| Pipeline.GenerateFromContents | uml_generate.py:120-129 | the diagram text of any list of texts starts with `@startuml` |
| Pipeline.JoinStartsWithFirst | uml_generate.py:115 | the joined text begins with the first line |
| Pipeline.ParseAllAppend | uml_generate.py:120-126 | the records of two lists of texts are the records of each list, in order |
| Pipeline.ParseAllNormal | uml_generate.py:120-126 | every record from every text has a normal, valid name |
| Pipeline.EveryClassDrawn | uml_generate.py:120-129 | every record from every text is drawn, in order, with its valid members and bases |
| Pipeline.ReadBack | uml_generate.py:120-129 | reading the generated text gives back the diagram of all records |
| Pipeline.NoKeywordEmptyDiagram | uml_generate.py:120-129 | texts without `class` or `struct` give exactly `@startuml\n@enduml` |
| Pipeline.NoKeywordNoRecords | uml_generate.py:120-126 | texts without `class` or `struct` give no records |
| Examples.KeywordFreeNoHeaders | uml_generate.py:42 | text in which no `c` precedes an `l` and no `s` precedes a `t` has no headers |
| Examples.KeywordFreeNoMatch | uml_generate.py:39 | in such text the header pattern matches at no position |
| Examples.SingleDeclaration | uml_generate.py:37-62 | `class X {...};` or `struct X {...};`, with a body holding no `}` and no position after the `{` where the header pattern matches, gives one record with that body's members |
| Examples.StructMemberIsPublic | uml_generate.py:50 | `struct X { int a; };` gives a public `int a;` drawn with `+` |
| Examples.ClassMemberIsPrivate | uml_generate.py:50 | `class X { int a; };` gives a private `int a;` drawn with `-` |
| Examples.MarkerMakesPublic | uml_generate.py:52-53 | `class X { public: int a; };` gives a public `int a;` drawn with `+`: the marker overrides the class default |
| Examples.InheritanceEdges | uml_generate.py:108-113 | `class D : public B1, private B2 { };` keeps the clause as written and draws the edges `B1 <|-- D` and `B2 <|-- D` |
| Examples.TemplateHeaderFails | uml_generate.py:39 | at any position holding `class` or `struct`, when the name run after the keyword's whitespace stops at a `<`, the header pattern fails there |
| Examples.TemplateClassNotParsed | uml_generate.py:39 | `class Foo<T> { int a; };` gives no record |
| Examples.CommaTemplateNoEdge | uml_generate.py:108-113 | the clause `public Base<int, float>` is split inside its argument list, and neither piece yields a valid base, so no edge is drawn |
| Examples.NestedTemplateEdge | uml_generate.py:108-113 | in the clause `public Base<Foo<int>, float>` the first piece normalises to `Base`, so exactly the edge `Base <|-- D` is drawn |

## Left out

- `find_cpp_files` (uml_generate.py:27-35) is a filesystem walk. The model is given the file texts instead.
- The file opening, decoding and exception swallowing in `generate_cpp_uml_from_path` (uml_generate.py:121-128) are I/O. A file that cannot be read contributes no records there; here only readable texts are passed in.
- The `__main__` block (uml_generate.py:131-140) handles arguments and writes the output file. It is I/O only.
- server.py and src/server.py are tool-server wrappers and transport around the generator. src/server.py also calls a generator entry point that uml_generate.py does not define. Neither is part of this model.
- weather_fetcher.py is an HTTP client unrelated to the diagram generator. It is not part of this model.
- `\w` is modelled as ASCII `[A-Za-z0-9_]`. Python's Unicode word characters beyond ASCII are not modelled. `\s` is modelled as the full set of code points Python treats as whitespace.
- Classifier.Tag: its own contract states only the member count. What each member holds is stated by `Classifier.TagLatestAccess` and `Classifier.TagFromField`.
- Classifier.Classify: its own contract states only the member count. The access and text of each member are stated by `Classifier.ClassifyTagsField`.
- Pipeline.GenerateFromContents: its own contract states only the opening delimiter. The full content is stated by `Pipeline.ReadBack` and `Pipeline.EveryClassDrawn`.

=== FILE: classifier.dfy ===
/**
  The member classifier: the member pattern
  `(public|private|protected):|([\w:<>,~]+\s+[\w:]+\s*(\([^)]*\))?;)` as a
  hand-written matcher, its `finditer` over one body, and the left fold
  that tags each field with the access in force at its position.
 */
module Classifier {
  import opened Text
  import opened Scanner

  datatype Access = Public | Private | Protected

  /** The source's name for an access level. */
  function AccessName(a: Access): string {
    match a
    case Public => "public"
    case Private => "private"
    case Protected => "protected"
  }

  /** A visibility-section marker as it appears in a body. */
  function MarkerText(a: Access): string {
    AccessName(a) + ":"
  }

  /** What one match of the member pattern found: group 1 or group 2. */
  datatype Token = Marker(access: Access) | Field(text: string)

  /** One match of the member pattern within a body. */
  datatype MemberMatch = MemberMatch(token: Token, start: nat, end: nat)

  /** A classified member: the access in force and the matched text. */
  datatype Member = Member(access: Access, text: string)

  /** `[\w:<>,~]`: the characters of the type-like run. */
  predicate IsTypeChar(c: char) {
    IsWordChar(c) || c == ':' || c == '<' || c == '>' || c == ',' || c == '~'
  }

  /** `[\w:]`: the characters of the name-like run. */
  predicate IsNameChar(c: char) {
    IsWordChar(c) || c == ':'
  }

  /** The first alternative, `(public|private|protected):`, tried at `p`. */
  function MarkerAt(b: string, p: nat): Option<Access> {
    if StartsAt(b, p, "public:") then Some(Public)
    else if StartsAt(b, p, "private:") then Some(Private)
    else if StartsAt(b, p, "protected:") then Some(Protected)
    else None
  }

  /**
    The end of the pattern, `\s*(\([^)]*\))?;`, once the whitespace is
    skipped: `;` at once, or a parameter list closed by the first `)` and
    followed by `;` at once.
   */
  function TailEndAt(b: string, e: nat): (r: Option<nat>)
    requires e <= |b|
    ensures r.Some? ==> e < r.value <= |b| && b[r.value - 1] == ';'
  {
    if e == |b| then None
    else if b[e] == ';' then Some(e + 1)
    else if b[e] == '(' then
      match FindChar(b, e + 1, ')')
      case Some(f) => if f + 1 < |b| && b[f + 1] == ';' then Some(f + 2) else None
      case None => None
    else None
  }

  /**
    The second alternative tried at `p`: the end of the match, if any. The
    three runs are maximal, since the element after each cannot match the
    character a shorter run would free.
   */
  function FieldEndAt(b: string, p: nat): (e: Option<nat>)
    requires p <= |b|
    ensures e.Some? ==> p < e.value <= |b| && b[e.value - 1] == ';' && IsTypeChar(b[p])
  {
    var a := SkipWhile(b, p, IsTypeChar);
    var c := SkipWhile(b, a, IsSpace);
    var d := SkipWhile(b, c, IsNameChar);
    if a == p || c == a || d == c then None
    else TailEndAt(b, SkipWhile(b, d, IsSpace))
  }

  /** The member pattern tried at `p`; the marker alternative is tried first. */
  function MatchMemberAt(b: string, p: nat): (m: Option<MemberMatch>)
    requires p <= |b|
    ensures m.Some? ==> m.value.start == p < m.value.end <= |b|
    ensures m.Some? && m.value.token.Field? ==> m.value.token.text == b[p..m.value.end]
  {
    match MarkerAt(b, p)
    case Some(a) => Some(MemberMatch(Marker(a), p, p + |MarkerText(a)|))
    case None =>
      match FieldEndAt(b, p)
      case Some(e) => Some(MemberMatch(Field(b[p..e]), p, e))
      case None => None
  }

  /** Every character of `b[i..j]` satisfies `P`. */
  predicate RunOf(b: string, i: nat, j: nat, P: char -> bool) {
    i <= j <= |b| && forall k :: i <= k < j ==> P(b[k])
  }

  /**
    `b[e..end]` is what follows the name: `;`, or a parenthesised list
    closed by its first `)` and then `;`.
   */
  predicate TailAt(b: string, e: nat, end: nat) {
    && e < end <= |b| && b[end - 1] == ';'
    && (|| end == e + 1
        || (&& end >= e + 3 && b[e] == '(' && b[end - 2] == ')'
            && forall k :: e + 1 <= k < end - 2 ==> b[k] != ')'))
  }

  /**
    Declarative reading of the second alternative with cut points:
    `b[p..end]` is a type-like run `b[p..a]`, whitespace `b[a..c]`, a
    name-like run `b[c..d]`, optional whitespace `b[d..e]` and the tail.
   */
  predicate FieldAt(b: string, p: nat, a: nat, c: nat, d: nat, e: nat, end: nat) {
    && p < a < c < d <= e
    && RunOf(b, p, a, IsTypeChar) && RunOf(b, a, c, IsSpace)
    && RunOf(b, c, d, IsNameChar) && RunOf(b, d, e, IsSpace)
    && TailAt(b, e, end)
  }

  /** A marker at `p` wins over any field that might start there. */
  lemma {:induction false} MarkerFirst(b: string, p: nat, a: Access)
    requires p <= |b|
    requires StartsAt(b, p, MarkerText(a))
    ensures MatchMemberAt(b, p) == Some(MemberMatch(Marker(a), p, p + |MarkerText(a)|))
  {
    hide FieldEndAt;
    assert b[p + 1] == MarkerText(a)[1];
    assert b[p + 2] == MarkerText(a)[2];
    match a
    case Public =>
    case Private =>
      assert !StartsAt(b, p, "public:") by { assert b[p + 1] == 'r'; }
    case Protected =>
      assert !StartsAt(b, p, "public:") by { assert b[p + 1] == 'r'; }
      assert !StartsAt(b, p, "private:") by { assert b[p + 2] == 'o'; }
  }

  /** Every marker the matcher reports is spelled out at its start, and the match ends right after it. */
  lemma MarkerSound(b: string, p: nat)
    requires p <= |b|
    requires MatchMemberAt(b, p).Some? && MatchMemberAt(b, p).value.token.Marker?
    ensures var m := MatchMemberAt(b, p).value;
            StartsAt(b, p, MarkerText(m.token.access)) && m.end == p + |MarkerText(m.token.access)|
  {
  }

  /** Every field the matcher reports has the shape of the second alternative, and no marker starts where it does. */
  lemma FieldSound(b: string, p: nat)
    requires p <= |b|
    requires MatchMemberAt(b, p).Some? && MatchMemberAt(b, p).value.token.Field?
    ensures MarkerAt(b, p).None?
    ensures exists a: nat, c: nat, d: nat, e: nat :: FieldAt(b, p, a, c, d, e, MatchMemberAt(b, p).value.end)
  {
    var a := SkipWhile(b, p, IsTypeChar);
    var c := SkipWhile(b, a, IsSpace);
    var d := SkipWhile(b, c, IsNameChar);
    var e := SkipWhile(b, d, IsSpace);
    var end := FieldEndAt(b, p).value;
    assert TailEndAt(b, e) == Some(end);
    TailSound(b, e);
    assert FieldAt(b, p, a, c, d, e, end);
  }

  lemma TailSound(b: string, e: nat)
    requires e <= |b|
    requires TailEndAt(b, e).Some?
    ensures TailAt(b, e, TailEndAt(b, e).value)
  {
  }

  lemma TailComplete(b: string, e: nat, end: nat)
    requires TailAt(b, e, end)
    ensures TailEndAt(b, e) == Some(end)
  {
    if end != e + 1 {
      assert FindChar(b, e + 1, ')') == Some(end - 2);
    }
  }

  /** Every occurrence of the second alternative where no marker starts is matched, exactly. */
  lemma FieldComplete(b: string, p: nat, a: nat, c: nat, d: nat, e: nat, end: nat)
    requires MarkerAt(b, p).None?
    requires FieldAt(b, p, a, c, d, e, end)
    ensures MatchMemberAt(b, p) == Some(MemberMatch(Field(b[p..end]), p, end))
  {
    SkipWhileAt(b, p, a, IsTypeChar);
    SkipWhileAt(b, a, c, IsSpace);
    SkipWhileAt(b, c, d, IsNameChar);
    SkipWhileAt(b, d, e, IsSpace);
    TailComplete(b, e, end);
  }

  /** `finditer` over a body: the member matches from `p` on, leftmost first. */
  function ScanMembers(b: string, p: nat): (ms: seq<MemberMatch>)
    requires p <= |b|
    ensures forall i :: 0 <= i < |ms| ==> p <= ms[i].start < ms[i].end <= |b| && MatchMemberAt(b, ms[i].start) == Some(ms[i])
    decreases |b| - p
  {
    if p == |b| then []
    else match MatchMemberAt(b, p)
      case Some(m) => [m] + ScanMembers(b, m.end)
      case None => ScanMembers(b, p + 1)
  }

  /** Position `q` lies inside one of the member matches `ms`. */
  ghost predicate CoversMember(ms: seq<MemberMatch>, q: nat) {
    exists i :: 0 <= i < |ms| && ms[i].start <= q < ms[i].end
  }

  /** Member matches are reported left to right and never overlap. */
  lemma {:induction false} ScanMembersOrdered(b: string, p: nat)
    requires p <= |b|
    ensures forall i, j :: 0 <= i < j < |ScanMembers(b, p)| ==> ScanMembers(b, p)[i].end <= ScanMembers(b, p)[j].start
    decreases |b| - p
  {
    hide MatchMemberAt;
    if p < |b| {
      match MatchMemberAt(b, p)
      case Some(m) =>
        ScanMembersOrdered(b, m.end);
        var rest := ScanMembers(b, m.end);
        var ms := ScanMembers(b, p);
        assert ms == [m] + rest;
        forall i, j | 0 <= i < j < |ms| ensures ms[i].end <= ms[j].start {
          assert ms[j] == rest[j - 1];
          if i > 0 {
            assert ms[i] == rest[i - 1];
          }
        }
      case None =>
        assert ScanMembers(b, p) == ScanMembers(b, p + 1);
        ScanMembersOrdered(b, p + 1);
    }
  }

  /** No member occurrence is missed: each lies at or inside a reported match. */
  lemma {:induction false} ScanMembersComplete(b: string, p: nat, q: nat)
    requires p <= q <= |b|
    requires MatchMemberAt(b, q).Some?
    ensures CoversMember(ScanMembers(b, p), q)
    decreases |b| - p
  {
    hide MatchMemberAt;
    var ms := ScanMembers(b, p);
    assert p < |b|;
    var m := MatchMemberAt(b, p);
    if m.Some? {
      assert ms == [m.value] + ScanMembers(b, m.value.end);
      if q < m.value.end {
        assert ms[0].start <= q < ms[0].end;
      } else {
        ScanMembersComplete(b, m.value.end, q);
        var rest := ScanMembers(b, m.value.end);
        var j :| 0 <= j < |rest| && rest[j].start <= q < rest[j].end;
        assert ms[j + 1] == rest[j];
      }
    } else {
      assert ms == ScanMembers(b, p + 1);
      assert p != q;
      ScanMembersComplete(b, p + 1, q);
      var j :| 0 <= j < |ms| && ms[j].start <= q < ms[j].end;
    }
  }

  /** Access at the start of a body: `private` for `class`, `public` for `struct`. */
  function DefaultAccess(kind: Kind): (a: Access)
    ensures a == Private <==> kind == Class
    ensures a != Protected
  {
    match kind
    case Class => Private
    case Struct => Public
  }

  /** Number of field matches in `ms`. */
  function CountFields(ms: seq<MemberMatch>): nat {
    if |ms| == 0 then 0
    else (if ms[0].token.Field? then 1 else 0) + CountFields(ms[1..])
  }

  /**
    Reference definition of the access in force after `ms`: the access of
    the last marker in `ms`, or `initial` when there is none.
   */
  function LatestAccess(initial: Access, ms: seq<MemberMatch>): Access {
    if |ms| == 0 then initial
    else if ms[|ms| - 1].token.Marker? then ms[|ms| - 1].token.access
    else LatestAccess(initial, ms[..|ms| - 1])
  }

  /**
    The loop over the matches, as a left fold: a marker replaces the
    access; a field is recorded, stripped, with the access in force.
   */
  function Tag(ms: seq<MemberMatch>, access: Access): (members: seq<Member>)
    ensures |members| == CountFields(ms)
  {
    if |ms| == 0 then []
    else match ms[0].token
      case Marker(a) => Tag(ms[1..], a)
      case Field(s) => [Member(access, Strip(s))] + Tag(ms[1..], access)
  }

  /** The members of one body, given the kind of its declaration. */
  function Classify(kind: Kind, body: string): (members: seq<Member>)
    ensures |members| == CountFields(ScanMembers(body, 0))
  {
    Tag(ScanMembers(body, 0), DefaultAccess(kind))
  }

  /** A leading marker sets the access the rest starts from. */
  lemma {:induction false} LatestAccessAfterMarker(initial: Access, m: MemberMatch, rest: seq<MemberMatch>)
    requires m.token.Marker?
    ensures LatestAccess(initial, [m] + rest) == LatestAccess(m.token.access, rest)
    decreases |rest|
  {
    if |rest| > 0 {
      assert ([m] + rest)[..|rest|] == [m] + rest[..|rest| - 1];
      LatestAccessAfterMarker(initial, m, rest[..|rest| - 1]);
    } else {
      assert ([m] + rest)[..0] == [];
    }
  }

  /** A leading field leaves the access unchanged. */
  lemma {:induction false} LatestAccessAfterField(initial: Access, m: MemberMatch, rest: seq<MemberMatch>)
    requires m.token.Field?
    ensures LatestAccess(initial, [m] + rest) == LatestAccess(initial, rest)
    decreases |rest|
  {
    if |rest| > 0 {
      assert ([m] + rest)[..|rest|] == [m] + rest[..|rest| - 1];
      LatestAccessAfterField(initial, m, rest[..|rest| - 1]);
    } else {
      assert ([m] + rest)[..0] == [];
    }
  }

  /**
    The fold agrees with the reference definition: the field at index `i`
    becomes member number `CountFields(ms[..i])`, tagged with the access of
    the latest marker before it (or the starting access).
   */
  lemma {:induction false} TagLatestAccess(ms: seq<MemberMatch>, initial: Access, i: nat)
    requires i < |ms| && ms[i].token.Field?
    ensures CountFields(ms[..i]) < |Tag(ms, initial)|
    ensures Tag(ms, initial)[CountFields(ms[..i])] == Member(LatestAccess(initial, ms[..i]), Strip(ms[i].token.text))
  {
    CountFieldsPrefix(ms, i);
    if i > 0 {
      var rest := ms[1..];
      assert ms[..i] == [ms[0]] + rest[..i - 1];
      TagLatestAccess(rest, if ms[0].token.Marker? then ms[0].token.access else initial, i - 1);
      if ms[0].token.Marker? {
        LatestAccessAfterMarker(initial, ms[0], rest[..i - 1]);
      } else {
        LatestAccessAfterField(initial, ms[0], rest[..i - 1]);
      }
    }
  }

  /** Fields before index `i` are fewer than all fields, when `ms[i]` is a field. */
  lemma {:induction false} CountFieldsPrefix(ms: seq<MemberMatch>, i: nat)
    requires i < |ms| && ms[i].token.Field?
    ensures CountFields(ms[..i]) < CountFields(ms)
  {
    if i > 0 {
      assert ms[..i][1..] == ms[1..][..i - 1];
      CountFieldsPrefix(ms[1..], i - 1);
    }
  }

  /** With no marker before it, a field keeps the starting access. */
  lemma {:induction false} NoMarkerKeepsInitial(initial: Access, ms: seq<MemberMatch>)
    requires forall k :: 0 <= k < |ms| ==> ms[k].token.Field?
    ensures LatestAccess(initial, ms) == initial
  {
    if |ms| > 0 {
      NoMarkerKeepsInitial(initial, ms[..|ms| - 1]);
    }
  }

  /** `.strip()` leaves a matched field unchanged: it starts with a type character and ends with `;`. */
  lemma FieldStripUnchanged(b: string, p: nat)
    requires p <= |b|
    requires MatchMemberAt(b, p).Some? && MatchMemberAt(b, p).value.token.Field?
    ensures Strip(MatchMemberAt(b, p).value.token.text) == MatchMemberAt(b, p).value.token.text
  {
    hide MatchMemberAt, FieldEndAt, MarkerAt, Strip, PaddedAt;
    FieldSound(b, p);
    var m := MatchMemberAt(b, p).value;
    var s := m.token.text;
    var a: nat, c: nat, d: nat, e: nat :| FieldAt(b, p, a, c, d, e, m.end);
    assert s[0] == b[p] && IsTypeChar(b[p]);
    assert s[|s| - 1] == b[m.end - 1] == ';';
    StripAround("", s, "");
    assert "" + s + "" == s;
  }

  /**
    Each member of a body is the text of the `i`-th match, which is a
    field, tagged with the access of the latest marker before it, or with
    the default access of the declaration's kind when no marker precedes.
   */
  lemma ClassifyTagsField(kind: Kind, body: string, i: nat)
    requires i < |ScanMembers(body, 0)| && ScanMembers(body, 0)[i].token.Field?
    ensures var ms := ScanMembers(body, 0);
            && CountFields(ms[..i]) < |Classify(kind, body)|
            && Classify(kind, body)[CountFields(ms[..i])]
               == Member(LatestAccess(DefaultAccess(kind), ms[..i]), ms[i].token.text)
  {
    var ms := ScanMembers(body, 0);
    TagLatestAccess(ms, DefaultAccess(kind), i);
    FieldStripUnchanged(body, ms[i].start);
  }

  /** Every member the fold records comes from a field match, stripped. */
  lemma {:induction false} TagFromField(ms: seq<MemberMatch>, access: Access, j: nat)
    requires j < |Tag(ms, access)|
    ensures exists i :: 0 <= i < |ms| && ms[i].token.Field? && Tag(ms, access)[j].text == Strip(ms[i].token.text)
  {
    var a := if ms[0].token.Marker? then ms[0].token.access else access;
    if ms[0].token.Marker? {
      TagFromField(ms[1..], a, j);
      var i :| 0 <= i < |ms[1..]| && ms[1..][i].token.Field? && Tag(ms[1..], a)[j].text == Strip(ms[1..][i].token.text);
      assert ms[i + 1] == ms[1..][i];
    } else if j > 0 {
      TagFromField(ms[1..], a, j - 1);
      var i :| 0 <= i < |ms[1..]| && ms[1..][i].token.Field? && Tag(ms[1..], a)[j - 1].text == Strip(ms[1..][i].token.text);
      assert ms[i + 1] == ms[1..][i];
    } else {
      assert Tag(ms, access)[0].text == Strip(ms[0].token.text);
    }
  }

  /**
    `text` is an occurrence of the field alternative in `body`, at a
    position where no marker starts.
   */
  ghost predicate IsFieldIn(body: string, text: string) {
    exists p: nat, a: nat, c: nat, d: nat, e: nat, end: nat ::
      MarkerAt(body, p).None? && FieldAt(body, p, a, c, d, e, end) && text == body[p..end]
  }

  /**
    Every member of a body is the text of an occurrence of the field
    alternative in that body: the stripping leaves it unaltered, and it
    begins with a type character and ends with `;`.
   */
  lemma ClassifyMemberIsField(kind: Kind, body: string, j: nat)
    requires j < |Classify(kind, body)|
    ensures IsFieldIn(body, Classify(kind, body)[j].text)
  {
    var ms := ScanMembers(body, 0);
    TagFromField(ms, DefaultAccess(kind), j);
    var i :| 0 <= i < |ms| && ms[i].token.Field? && Classify(kind, body)[j].text == Strip(ms[i].token.text);
    FieldMatchIsField(body, ms[i]);
  }

  /** A field match found by the scan is an occurrence of the field alternative, unaltered by stripping. */
  lemma FieldMatchIsField(body: string, m: MemberMatch)
    requires m.start <= |body| && MatchMemberAt(body, m.start) == Some(m) && m.token.Field?
    ensures IsFieldIn(body, Strip(m.token.text))
  {
    var p := m.start;
    FieldStripUnchanged(body, p);
    FieldSound(body, p);
    var a, c, d, e :| FieldAt(body, p, a, c, d, e, m.end);
    assert Strip(m.token.text) == body[p..m.end];
  }

  /** Fewer fields precede an earlier position than a later field. */
  lemma {:induction false} CountFieldsMonotone(ms: seq<MemberMatch>, i: nat, j: nat)
    requires i < j < |ms| && ms[i].token.Field?
    ensures CountFields(ms[..i]) < CountFields(ms[..j])
  {
    CountFieldsPrefix(ms[..j], i);
    assert ms[..j][..i] == ms[..i];
  }

  /**
    Members keep source order: of two field matches, the earlier one
    becomes the earlier member.
   */
  lemma ClassifyKeepsOrder(kind: Kind, body: string, i: nat, j: nat)
    requires i < j < |ScanMembers(body, 0)|
    requires ScanMembers(body, 0)[i].token.Field? && ScanMembers(body, 0)[j].token.Field?
    ensures var ms := ScanMembers(body, 0);
            && CountFields(ms[..i]) < CountFields(ms[..j]) < |Classify(kind, body)|
            && ms[i].end <= ms[j].start
  {
    var ms := ScanMembers(body, 0);
    ScanMembersOrdered(body, 0);
    hide *;
    CountFieldsMonotone(ms, i, j);
    CountFieldsPrefix(ms, j);
  }
}

=== FILE: examples.dfy ===
/**
  Worked inputs: whole texts parsed and rendered, showing default access
  by kind, a visibility marker, and an inheritance clause with access
  specifiers in front of its bases.

  Each worked text is fixed by a `requires`. The general step lemmas
  carry the reasoning; a proof about a whole text states the literal
  facts it needs, then hides the definitions and chains the steps, so
  that no proof has to evaluate the matchers over the entire text.
 */
module Examples {
  import opened Text
  import opened Normalize
  import opened Scanner
  import opened Classifier
  import opened Parser
  import opened Render

  // ---------------------------------------------------------------------
  // Steps shared by the examples.

  /** No member match starts at whitespace. */
  lemma SpaceNoMember(b: string, p: nat)
    requires p < |b| && IsSpace(b[p])
    ensures MatchMemberAt(b, p).None?
  {
    assert !IsTypeChar(b[p]);
    FirstCharDiffers(b, p, "public:");
    FirstCharDiffers(b, p, "private:");
    FirstCharDiffers(b, p, "protected:");
    SkipWhileAt(b, p, p, IsTypeChar);
  }

  /** A word does not start where its first character is not found. */
  lemma FirstCharDiffers(s: string, p: nat, w: string)
    requires p < |s| && |w| > 0 && s[p] != w[0]
    ensures !StartsAt(s, p, w)
  {
    if p + |w| <= |s| {
      assert s[p..p + |w|][0] == s[p];
    }
  }

  lemma ScanSkip(b: string, p: nat)
    requires p < |b| && MatchMemberAt(b, p).None?
    ensures ScanMembers(b, p) == ScanMembers(b, p + 1)
  {
  }

  lemma ScanTake(b: string, p: nat, m: MemberMatch)
    requires p < |b| && MatchMemberAt(b, p) == Some(m)
    ensures ScanMembers(b, p) == [m] + ScanMembers(b, m.end)
  {
  }

  lemma ScanAtEnd(b: string)
    ensures ScanMembers(b, |b|) == []
  {
  }

  lemma FieldIntA(body: string, p: nat)
    requires p + 6 <= |body| && body[p..p + 6] == "int a;"
    ensures MarkerAt(body, p).None?
    ensures FieldAt(body, p, p + 3, p + 4, p + 5, p + 5, p + 6)
  {
    assert body[p] == 'i' && body[p + 3] == ' ' && body[p + 4] == 'a' && body[p + 5] == ';';
    assert body[p + 1] == 'n' && body[p + 2] == 't';
  }

  /** A body made of one field between two spaces. */
  lemma OneFieldBody(body: string)
    requires body == " int a; "
    ensures ScanMembers(body, 0) == [MemberMatch(Field("int a;"), 1, 7)]
  {
    assert IsSpace(body[0]) && IsSpace(body[7]) && body[1..7] == "int a;";
    hide *;
    SpaceNoMember(body, 0);
    IntAAt(body, 1);
    SpaceNoMember(body, 7);
    var m := MemberMatch(Field("int a;"), 1, 7);
    ScanSkip(body, 0);
    ScanTake(body, 1, m);
    ScanSkip(body, 7);
    ScanAtEnd(body);
  }

  /** A body with a marker followed by one field. */
  lemma MarkerFieldBody(body: string)
    requires body == " public: int a; "
    ensures ScanMembers(body, 0) == [MemberMatch(Marker(Public), 1, 8), MemberMatch(Field("int a;"), 9, 15)]
  {
    MarkerFieldMatches(body);
    var m1 := MemberMatch(Marker(Public), 1, 8);
    var m2 := MemberMatch(Field("int a;"), 9, 15);
    hide MatchMemberAt, ScanMembers;
    ScanSkip(body, 0);
    ScanTake(body, 1, m1);
    ScanSkip(body, 8);
    ScanTake(body, 9, m2);
    ScanSkip(body, 15);
    ScanAtEnd(body);
  }

  lemma MarkerFieldMatches(body: string)
    requires body == " public: int a; "
    ensures MatchMemberAt(body, 0).None? && MatchMemberAt(body, 8).None? && MatchMemberAt(body, 15).None?
    ensures MatchMemberAt(body, 1) == Some(MemberMatch(Marker(Public), 1, 8))
    ensures MatchMemberAt(body, 9) == Some(MemberMatch(Field("int a;"), 9, 15))
  {
    hide MatchMemberAt;
    SpaceNoMember(body, 0);
    SpaceNoMember(body, 8);
    SpaceNoMember(body, 15);
    PublicAt(body);
    IntAAt(body, 9);
  }

  lemma IntAAt(body: string, p: nat)
    requires p + 6 <= |body| && body[p..p + 6] == "int a;"
    ensures MatchMemberAt(body, p) == Some(MemberMatch(Field("int a;"), p, p + 6))
  {
    FieldIntA(body, p);
    FieldComplete(body, p, p + 3, p + 4, p + 5, p + 5, p + 6);
  }

  lemma PublicAt(body: string)
    requires body == " public: int a; "
    ensures MatchMemberAt(body, 1) == Some(MemberMatch(Marker(Public), 1, 8))
  {
    assert body[1..8] == "public:";
    MarkerFirst(body, 1, Public);
  }

  /** The header of `class X {` or `struct X {` at the start of a text. */
  lemma HeaderX(t: string, kind: Kind)
    requires |Keyword(kind)| + 4 <= |t| && t[..|Keyword(kind)| + 4] == Keyword(kind) + " X {"
    ensures var n := |Keyword(kind)|;
            MatchHeaderAt(t, 0) == Some(Header(kind, "X", None, 0, n + 1, n + 4))
  {
    hide *;
    var n := |Keyword(kind)|;
    assert t[..n + 4][..n] == Keyword(kind);
    assert t[n] == ' ' && t[n + 1] == 'X' && t[n + 2] == ' ' && t[n + 3] == '{';
    KeywordAtStart(t, kind);
    SpaceAndX(t, n);
    assert t[n + 1..n + 2] == "X";
    RestBrace(t, n + 2);
    HeaderOfParts(t, 0, kind, n + 1, n + 2, (None, n + 4));
  }

  lemma SpaceAndX(t: string, n: nat)
    requires n + 3 <= |t| && t[n] == ' ' && t[n + 1] == 'X' && t[n + 2] == ' '
    ensures SkipWhile(t, n, IsSpace) == n + 1 && SkipWhile(t, n + 1, IsWordChar) == n + 2
  {
    SkipWhileAt(t, n, n + 1, IsSpace);
    SkipWhileAt(t, n + 1, n + 2, IsWordChar);
  }

  /** A space and `{` after the name: no inheritance clause. */
  lemma RestBrace(t: string, c: nat)
    requires c + 2 <= |t| && t[c] == ' ' && t[c + 1] == '{'
    ensures RestAt(t, c) == Some((None, c + 2))
  {
    SkipWhileAt(t, c, c + 1, IsSpace);
  }


  lemma KeywordAtStart(t: string, kind: Kind)
    requires |Keyword(kind)| <= |t| && t[..|Keyword(kind)|] == Keyword(kind)
    ensures KeywordAt(t, 0) == Some(kind)
  {
    assert StartsAt(t, 0, Keyword(kind));
    if kind == Struct {
      assert t[0] == 's';
      FirstCharDiffers(t, 0, "class");
    }
  }

  /** Text where neither keyword can start, since no `c` precedes an `l` and no `s` a `t`. */
  predicate KeywordFree(t: string, from: nat) {
    forall q :: from <= q && q + 1 < |t| ==> !(t[q] == 'c' && t[q + 1] == 'l') && !(t[q] == 's' && t[q + 1] == 't')
  }

  /** A word does not start where its first two characters are not found. */
  lemma NotStartsAt(t: string, q: nat, w: string)
    requires |w| >= 2
    requires q + 1 < |t| ==> t[q] != w[0] || t[q + 1] != w[1]
    ensures !StartsAt(t, q, w)
  {
    if q + |w| <= |t| {
      assert t[q..q + |w|][0] == t[q] && t[q..q + |w|][1] == t[q + 1];
    }
  }

  lemma KeywordFreeNoHeaders(t: string, from: nat)
    requires from <= |t| && KeywordFree(t, from)
    ensures ScanHeaders(t, from) == []
  {
    forall q | from <= q <= |t| ensures !StartsAt(t, q, "class") && !StartsAt(t, q, "struct") {
      NotStartsAt(t, q, "class");
      NotStartsAt(t, q, "struct");
    }
    NoKeywordNoHeaders(t, from);
  }

  /** In keyword-free text the header pattern matches nowhere. */
  lemma KeywordFreeNoMatch(t: string, from: nat)
    requires from <= |t| && KeywordFree(t, from)
    ensures forall q :: from <= q <= |t| ==> MatchHeaderAt(t, q).None?
  {
    forall q | from <= q <= |t| ensures MatchHeaderAt(t, q).None? {
      NotStartsAt(t, q, "class");
      NotStartsAt(t, q, "struct");
    }
  }

  lemma HeadersStep(t: string, p: nat, h: Header)
    requires p < |t| && MatchHeaderAt(t, p) == Some(h)
    ensures ScanHeaders(t, p) == [h] + ScanHeaders(t, h.end)
  {
  }

  /**
    The header pattern fails at `p` where the name run after the keyword and
    its whitespace stops at a `<`: after the name only whitespace, a colon
    or `{` may come.
   */
  lemma TemplateHeaderFails(t: string, p: nat, kind: Kind)
    requires StartsAt(t, p, Keyword(kind))
    requires var c := SkipWhile(t, SkipWhile(t, p + |Keyword(kind)|, IsSpace), IsWordChar);
             c < |t| && t[c] == '<'
    ensures MatchHeaderAt(t, p).None?
  {
    if kind == Struct {
      assert t[p..p + 6][0] == t[p];
      FirstCharDiffers(t, p, "class");
    }
    assert KeywordAt(t, p) == Some(kind);
    var c := SkipWhile(t, SkipWhile(t, p + |Keyword(kind)|, IsSpace), IsWordChar);
    SkipWhileAt(t, c, c, IsSpace);
    assert RestAt(t, c).None?;
  }

  /** `class Foo<`: the keyword, one space, and the name `Foo` stopped by a `<`. */
  lemma FooTemplateParts(t: string)
    requires |t| >= 10 && t[..10] == "class Foo<"
    ensures StartsAt(t, 0, Keyword(Class))
    ensures SkipWhile(t, SkipWhile(t, 5, IsSpace), IsWordChar) == 9 && t[9] == '<'
  {
    assert t[..5] == "class";
    assert t[5] == ' ' && t[6] == 'F' && t[7] == 'o' && t[8] == 'o' && t[9] == '<';
    SkipWhileAt(t, 5, 6, IsSpace);
    SkipWhileAt(t, 6, 9, IsWordChar);
  }

  /**
    `class Foo<T> { int a; };` gives no record at all: the header pattern
    needs whitespace, a colon or `{` right after the name, so a template
    declaration is never reported.
   */
  lemma TemplateClassNotParsed(t: string)
    requires t == "class Foo<T> { int a; };"
    ensures ParseCppClasses(t) == []
  {
    assert t[..10] == "class Foo<";
    TemplateTailKeywordFree(t);
    hide *;
    FooTemplateParts(t);
    TemplateHeaderFails(t, 0, Class);
    HeadersSkip(t, 0);
    KeywordFreeNoHeaders(t, 1);
  }

  lemma TemplateTailKeywordFree(t: string)
    requires t == "class Foo<T> { int a; };"
    ensures KeywordFree(t, 1)
  {
    assert |t| == 24;
    assert forall q :: 1 <= q < 24 ==> t[q] != 'c';
    assert forall q :: 1 <= q < 23 && t[q] == 's' ==> t[q + 1] != 't';
  }

  lemma HeadersSkip(t: string, p: nat)
    requires p < |t| && MatchHeaderAt(t, p).None?
    ensures ScanHeaders(t, p) == ScanHeaders(t, p + 1)
  {
  }

  lemma {:induction false} FindCloseAt(t: string, i: nat, e: nat)
    requires i <= e && ClosesAt(t, e)
    requires forall k :: i <= k < e ==> t[k] != '}'
    ensures FindClose(t, i) == Some(e)
    decreases e - i
  {
    if i < e {
      FindCloseAt(t, i + 1, e);
    }
  }

  /** The body after the `{` reaches the `};` when it holds no `}` of its own. */
  lemma BodyBeforeClose(t: string, open: nat, body: string)
    requires open + |body| + 2 == |t| && t[open..] == body + "};"
    requires forall k :: 0 <= k < |body| ==> body[k] != '}'
    ensures BodyAt(t, open) == body
  {
    assert forall k :: open <= k < |t| ==> t[k] == t[open..][k - open];
    FindCloseAt(t, open, open + |body|);
    assert t[open..open + |body|] == t[open..][..|body|];
  }

  /**
    A text holding one declaration `class X { ... };` or `struct X { ... };`
    whose body has no `}`, and where the header pattern matches nowhere
    after the `{`, gives one record.
   */
  lemma SingleDeclaration(t: string, kind: Kind, body: string)
    requires t == Keyword(kind) + " X {" + body + "};"
    requires forall q :: |Keyword(kind)| + 4 <= q <= |t| ==> MatchHeaderAt(t, q).None?
    requires forall k :: 0 <= k < |body| ==> body[k] != '}'
    ensures ParseCppClasses(t) == [ClassRecord(kind, "X", None, Classify(kind, body))]
  {
    var n := |Keyword(kind)|;
    var h := Header(kind, "X", None, 0, n + 1, n + 4);
    assert t[..n + 4] == Keyword(kind) + " X {";
    assert t[n + 4..] == body + "};";
    hide *;
    HeaderX(t, kind);
    HeadersStep(t, 0, h);
    NoMatchNoHeaders(t, n + 4);
    BodyBeforeClose(t, n + 4, body);
    OneHeader(t, h, body);
  }

  /** A text with one header match gives one record, holding the members of its body. */
  lemma OneHeader(t: string, h: Header, body: string)
    requires ScanHeaders(t, 0) == [h] && h.end <= |t| && BodyAt(t, h.end) == body
    ensures ParseCppClasses(t) == [ClassRecord(h.kind, h.name, h.inherit, Classify(h.kind, body))]
  {
    hide MatchHeaderAt, ScanHeaders, BodyAt, Classify, IsBodyOf, MatchMemberAt;
    var ds := ScanDeclarations(t);
    assert |ds| == 1 && ds[0] == Declaration(h, body);
    assert ParseCppClasses(t) == [RecordOf(ds[0])];
  }

  /** One record with the member `int a;` is drawn as a block with one line. */
  lemma RenderOneMember(kind: Kind, access: Access)
    ensures GeneratePlantUml([ClassRecord(kind, "X", None, [Member(access, "int a;")])])
            == ["@startuml", "class X {", EntryLine(Glyph(access), "int a;"), "}", "@enduml"]
  {
    var r := ClassRecord(kind, "X", None, [Member(access, "int a;")]);
    IdentifierIsNormal("X");
    assert IsValidMember("int a;");
    assert MemberLines(r.members) == [EntryLine(Glyph(access), "int a;")];
    assert OpenLine("X") == "class X {";
    assert ClassLines(r) == ["class X {", EntryLine(Glyph(access), "int a;"), "}"];
    assert RecordLines([r]) == ClassLines(r);
  }

  /** The member line of `int a;` with glyph `g`. */
  lemma IntALine(g: char, line: string)
    requires line == "    " + [g] + " int a;"
    ensures EntryLine(g, "int a;") == line
  {
    var l := EntryLine(g, "int a;");
    assert |l| == 12;
    assert forall k :: 0 <= k < 12 ==> l[k] == line[k];
  }

  /** A single field with no marker gets the default access of the kind. */
  lemma ClassifyOneField(kind: Kind, body: string)
    requires body == " int a; "
    ensures Classify(kind, body) == [Member(DefaultAccess(kind), "int a;")]
  {
    hide MatchMemberAt, ScanMembers, Strip;
    OneFieldBody(body);
    IntAAt(body, 1);
    FieldStripUnchanged(body, 1);
  }

  /** A marker before a field sets the field's access. */
  lemma ClassifyMarkerField(body: string)
    requires body == " public: int a; "
    ensures Classify(Class, body) == [Member(Public, "int a;")]
  {
    hide MatchMemberAt, ScanMembers, Strip;
    MarkerFieldBody(body);
    IntAAt(body, 9);
    FieldStripUnchanged(body, 9);
    var ms := ScanMembers(body, 0);
    assert ms[1..] == [MemberMatch(Field("int a;"), 9, 15)];
    assert Tag(ms, Private) == Tag(ms[1..], Public);
  }

  /** The three one-member texts below each give one record `X`, its members still to classify. */
  lemma ScannedX(t: string, kind: Kind, body: string)
    requires body == " int a; " || body == " public: int a; "
    requires t == Keyword(kind) + " X {" + body + "};"
    ensures ParseCppClasses(t) == [ClassRecord(kind, "X", None, Classify(kind, body))]
  {
    var n := |Keyword(kind)|;
    assert t[n + 4..] == body + "};";
    assert forall k :: 0 <= k < |body| ==> body[k] != '}';
    hide *;
    BodyKeywordFree(body + "};");
    KeywordFreeSuffix(t, n + 4, body + "};");
    KeywordFreeNoMatch(t, n + 4);
    SingleDeclaration(t, kind, body);
  }

  lemma BodyKeywordFree(u: string)
    requires u == " int a; };" || u == " public: int a; };"
    ensures KeywordFree(u, 0)
  {
  }

  /** Whether a text is keyword-free from `from` on depends only on what follows `from`. */
  lemma KeywordFreeSuffix(t: string, from: nat, u: string)
    requires from <= |t| && t[from..] == u && KeywordFree(u, 0)
    ensures KeywordFree(t, from)
  {
    forall q | from <= q && q + 1 < |t|
      ensures !(t[q] == 'c' && t[q + 1] == 'l') && !(t[q] == 's' && t[q + 1] == 't')
    {
      assert t[q] == u[q - from] && t[q + 1] == u[q + 1 - from];
    }
  }

  /** `struct X { int a; };`: with no marker the member is public and drawn with `+`. */
  lemma StructMemberIsPublic(t: string, body: string)
    requires body == " int a; " && t == "struct X {" + body + "};"
    ensures ParseCppClasses(t) == [ClassRecord(Struct, "X", None, [Member(Public, "int a;")])]
    ensures GeneratePlantUml(ParseCppClasses(t)) == ["@startuml", "class X {", "    + int a;", "}", "@enduml"]
  {
    assert DefaultAccess(Struct) == Public && Glyph(Public) == '+';
    assert "    + int a;" == "    " + ['+'] + " int a;";
    assert t == Keyword(Struct) + " X {" + body + "};";
    hide *;
    ScannedX(t, Struct, body);
    ClassifyOneField(Struct, body);
    RenderOneMember(Struct, Public);
    IntALine('+', "    + int a;");
  }

  /** `class X { int a; };`: with no marker the member is private and drawn with `-`. */
  lemma ClassMemberIsPrivate(t: string, body: string)
    requires body == " int a; " && t == "class X {" + body + "};"
    ensures ParseCppClasses(t) == [ClassRecord(Class, "X", None, [Member(Private, "int a;")])]
    ensures GeneratePlantUml(ParseCppClasses(t)) == ["@startuml", "class X {", "    - int a;", "}", "@enduml"]
  {
    assert DefaultAccess(Class) == Private && Glyph(Private) == '-';
    assert "    - int a;" == "    " + ['-'] + " int a;";
    assert t == Keyword(Class) + " X {" + body + "};";
    hide *;
    ScannedX(t, Class, body);
    ClassifyOneField(Class, body);
    RenderOneMember(Class, Private);
    IntALine('-', "    - int a;");
  }

  /** `class X { public: int a; };`: the marker makes the member public. */
  lemma MarkerMakesPublic(t: string, body: string)
    requires body == " public: int a; " && t == "class X {" + body + "};"
    ensures ParseCppClasses(t) == [ClassRecord(Class, "X", None, [Member(Public, "int a;")])]
    ensures GeneratePlantUml(ParseCppClasses(t)) == ["@startuml", "class X {", "    + int a;", "}", "@enduml"]
  {
    assert Glyph(Public) == '+';
    assert "    + int a;" == "    " + ['+'] + " int a;";
    assert t == Keyword(Class) + " X {" + body + "};";
    hide *;
    ScannedX(t, Class, body);
    ClassifyMarkerField(body);
    RenderOneMember(Class, Public);
    IntALine('+', "    + int a;");
  }

  // ---------------------------------------------------------------------
  // `class D : public B1, private B2 { };`

  /** The header: the clause runs from `public` up to the `{`, trailing space included. */
  lemma DerivedHeader(t: string, clause: string)
    requires clause == "public B1, private B2 " && t == "class D : " + clause + "{ };"
    ensures MatchHeaderAt(t, 0) == Some(Header(Class, "D", Some(clause), 0, 6, 33))
  {
    hide MatchHeaderAt;
    assert t[..5] == Keyword(Class);
    KeywordAtStart(t, Class);
    SkipWhileAt(t, 5, 6, IsSpace);
    SkipWhileAt(t, 6, 7, IsWordChar);
    assert t[6..7] == "D";
    DerivedRest(t, clause);
    HeaderOfParts(t, 0, Class, 6, 7, (Some(clause), 33));
  }

  lemma DerivedRest(t: string, clause: string)
    requires clause == "public B1, private B2 " && t == "class D : " + clause + "{ };"
    ensures RestAt(t, 7) == Some((Some(clause), 33))
  {
    SkipWhileAt(t, 7, 8, IsSpace);
    SkipWhileAt(t, 9, 10, IsSpace);
    assert t[32] == '{';
    assert forall k :: 10 <= k < 32 ==> t[k] != '{';
    FindCharAt(t, 10, 32, '{');
    assert t[10..32] == clause;
    assert ClauseAt(t, 9) == Some((clause, 33));
  }

  lemma DerivedScanned(t: string, clause: string)
    requires clause == "public B1, private B2 " && t == "class D : " + clause + "{ };"
    ensures ParseCppClasses(t) == [ClassRecord(Class, "D", Some(clause), Classify(Class, " "))]
  {
    var h := Header(Class, "D", Some(clause), 0, 6, 33);
    assert t[33..] == " " + "};";
    assert KeywordFree(t, 33);
    hide *;
    DerivedHeader(t, clause);
    HeadersStep(t, 0, h);
    KeywordFreeNoHeaders(t, 33);
    BodyBeforeClose(t, 33, " ");
    OneHeader(t, h, " ");
  }

  lemma BlankBodyNoMembers(body: string)
    requires body == " "
    ensures Classify(Class, body) == []
  {
    SpaceNoMember(body, 0);
    assert ScanMembers(body, 0) == ScanMembers(body, 1);
  }

  lemma SplitClause(clause: string)
    requires clause == "public B1, private B2 "
    ensures Split(clause, ',') == ["public B1", " private B2 "]
  {
    FindCharAt(clause, 0, 9, ',');
    assert clause[..9] == "public B1";
    assert clause[10..] == " private B2 ";
    assert FindChar(" private B2 ", 0, ',') == None;
  }

  /** A clause of two pieces whose bases are both valid gives two edges, in order. */
  lemma TwoEdges(clause: string, name: string, p0: string, p1: string, b0: string, b1: string)
    requires |clause| > 0 && Split(clause, ',') == [p0, p1]
    requires BaseName(p0) == b0 && IsValidIdentifier(b0)
    requires BaseName(p1) == b1 && IsValidIdentifier(b1)
    ensures InheritLines(Some(clause), name) == [EdgeLine(b0, name), EdgeLine(b1, name)]
  {
    hide BaseName, IsValidIdentifier, Split, EdgeLine, Strip, StripTemplate, LastWordFrom;
    var pieces := [p0, p1];
    assert pieces[1..] == [p1] && pieces[1..][1..] == [];
    assert EdgeLines([p1], name) == [EdgeLine(b1, name)] + EdgeLines([], name);
    assert EdgeLines(pieces, name) == [EdgeLine(b0, name)] + EdgeLines([p1], name);
  }

  lemma EdgeText(base: string, line: string)
    requires (base == "B1" && line == "B1 <|-- D") || (base == "B2" && line == "B2 <|-- D")
    ensures EdgeLine(base, "D") == line
  {
    var l := EdgeLine(base, "D");
    assert |l| == 9;
    assert forall k :: 0 <= k < 9 ==> l[k] == line[k];
  }

  lemma DerivedEdges(clause: string)
    requires clause == "public B1, private B2 "
    ensures InheritLines(Some(clause), "D") == ["B1 <|-- D", "B2 <|-- D"]
  {
    hide BaseName, Strip, StripTemplate, LastWordFrom, Split, InheritLines, EdgeLine;
    assert "public B1" == "" + ("public" + " " + "B1") + "";
    BaseOfPiece("public B1", "", "public", "B1", "");
    assert " private B2 " == " " + ("private" + " " + "B2") + " ";
    BaseOfPiece(" private B2 ", " ", "private", "B2", " ");
    hide *;
    SplitClause(clause);
    EdgeText("B1", "B1 <|-- D");
    EdgeText("B2", "B2 <|-- D");
    TwoEdges(clause, "D", "public B1", " private B2 ", "B1", "B2");
  }

  /**
    `class D : public B1, private B2 { };` gives one record with the clause
    as written, and its diagram has one edge per base, the access
    specifiers dropped.
   */
  lemma InheritanceEdges(t: string, clause: string)
    requires clause == "public B1, private B2 " && t == "class D : " + clause + "{ };"
    ensures ParseCppClasses(t) == [ClassRecord(Class, "D", Some(clause), [])]
    ensures GeneratePlantUml(ParseCppClasses(t))
            == ["@startuml", "class D {", "}", "B1 <|-- D", "B2 <|-- D", "@enduml"]
  {
    DerivedScanned(t, clause);
    BlankBodyNoMembers(" ");
    var r := ClassRecord(Class, "D", Some(clause), []);
    hide *;
    DrawDerived(r, clause);
  }

  lemma DrawDerived(r: ClassRecord, clause: string)
    requires clause == "public B1, private B2 " && r == ClassRecord(Class, "D", Some(clause), [])
    ensures GeneratePlantUml([r]) == ["@startuml", "class D {", "}", "B1 <|-- D", "B2 <|-- D", "@enduml"]
  {
    hide *;
    NameD("D");
    DerivedEdges(clause);
    DrawMemberless(r, "class D {", ["B1 <|-- D", "B2 <|-- D"]);
  }

  lemma NameD(name: string)
    requires name == "D"
    ensures StripTemplate(name) == name && IsValidIdentifier(name)
    ensures OpenLine(name) == "class D {"
  {
    IdentifierIsNormal(name);
  }

  /** The diagram of one record without members: its open line, `}`, then its edges. */
  lemma DrawMemberless(r: ClassRecord, open: string, edges: seq<string>)
    requires StripTemplate(r.name) == r.name && IsValidIdentifier(r.name) && r.members == []
    requires OpenLine(r.name) == open && InheritLines(r.inherit, r.name) == edges
    ensures GeneratePlantUml([r]) == ["@startuml", open, "}"] + edges + ["@enduml"]
  {
    hide *;
    ValidClassLines(r);
    OneRecordLines(r);
    EmptyMemberLines();
  }

  lemma EmptyMemberLines()
    ensures MemberLines([]) == []
  {
  }

  /** The lines of a record whose name is already normal and valid. */
  lemma ValidClassLines(r: ClassRecord)
    requires StripTemplate(r.name) == r.name && IsValidIdentifier(r.name)
    ensures ClassLines(r) == [OpenLine(r.name)] + MemberLines(r.members) + ["}"] + InheritLines(r.inherit, r.name)
  {
  }

  lemma OneRecordLines(r: ClassRecord)
    ensures GeneratePlantUml([r]) == ["@startuml"] + ClassLines(r) + ["@enduml"]
  {
    assert RecordLines([r]) == ClassLines(r) + RecordLines([]);
  }

  // ---------------------------------------------------------------------
  // Template argument lists inside an inheritance clause.

  /** A text with no `>` holds no span to remove. */
  lemma {:induction false} NoCloseUnchanged(s: string)
    requires '>' !in s
    ensures StripTemplate(s) == s
    decreases |s|
  {
    if |s| > 0 {
      assert '>' !in s[1..];
      NoCloseUnchanged(s[1..]);
      assert s == [s[0]] + s[1..];
    }
  }

  /** A clause `p0,p1` with no other comma splits into its two pieces. */
  lemma SplitAtComma(clause: string, p0: string, p1: string)
    requires clause == p0 + "," + p1 && ',' !in p0 && ',' !in p1
    ensures Split(clause, ',') == [p0, p1]
  {
    assert forall k :: 0 <= k < |p0| ==> clause[k] == p0[k];
    assert clause[|p0|] == ',';
    FindCharAt(clause, 0, |p0|, ',');
    assert clause[..|p0|] == p0;
    assert clause[|p0| + 1..] == p1;
    assert FindChar(p1, 0, ',').None?;
  }

  /** `public Base<int` names `Base<int`: no `>` closes its `<`, and `<` is not valid. */
  lemma UnclosedBase(piece: string)
    requires piece == "public Base<int"
    ensures BaseName(piece) == "Base<int" && !IsValidIdentifier(BaseName(piece))
  {
    hide *;
    UnclosedFacts(piece);
    NotSpaceChar(piece[0]);
    NotSpaceChar(piece[|piece| - 1]);
    StripUnpadded(piece);
    BaseNameParts(piece, "public", "Base<int");
    NoCloseUnchanged("Base<int");
  }

  lemma UnclosedFacts(piece: string)
    requires piece == "public Base<int"
    ensures piece == "public" + " " + "Base<int" && |piece| > 0
    ensures piece[0] in "pt>" && piece[|piece| - 1] in "pt>"
    ensures ' ' !in "public" && ' ' !in "Base<int" && '>' !in "Base<int"
    ensures !IsValidIdentifier("Base<int")
  {
    assert !IsIdentChar("Base<int"[4]);
  }

  /** Letters used by the worked pieces, and `>`, are not whitespace. */
  lemma NotSpaceChar(c: char)
    requires c in "pt>"
    ensures !IsSpace(c)
  {
  }

  /** ` float>` names `float>`, which `>` makes invalid. */
  lemma StrayCloseBase(piece: string)
    requires piece == " float>"
    ensures BaseName(piece) == "float>" && !IsValidIdentifier(BaseName(piece))
  {
    hide *;
    StrayStrip(piece);
    StrayFacts("float>");
    BaseNameWord(piece, "float>");
  }

  lemma StrayStrip(piece: string)
    requires piece == " float>"
    ensures Strip(piece) == "float>"
  {
    assert piece == " " + "float>" + "";
    assert IsSpace(' ');
    assert "float>"[0] == 'f' && "float>"[5] == '>' && !IsSpace('f');
    hide *;
    NotSpaceChar('>');
    StripAround(" ", "float>", "");
  }

  lemma StrayFacts(w: string)
    requires w == "float>"
    ensures ' ' !in w && StripTemplate(w) == w && !IsValidIdentifier(w)
  {
    assert !IsIdentChar(w[5]);
  }

  /** `public Base<Foo<int>` names `Base`: the span `<Foo<int>` ends at the first `>`. */
  lemma NestedBase(piece: string)
    requires piece == "public Base<Foo<int>"
    ensures BaseName(piece) == "Base" && IsValidIdentifier(BaseName(piece))
  {
    hide *;
    NestedPieceStrip(piece);
    NestedPieceWords();
    BaseNameParts(piece, "public", "Base<Foo<int>");
    NestedWordStrip("Base<Foo<int>");
    BaseIdent("Base");
  }

  lemma NestedPieceStrip(piece: string)
    requires piece == "public Base<Foo<int>"
    ensures Strip(piece) == "public" + " " + "Base<Foo<int>"
  {
    assert piece[0] == 'p' && piece[|piece| - 1] == '>';
    assert piece == "public" + " " + "Base<Foo<int>";
    hide *;
    NotSpaceChar('p');
    NotSpaceChar('>');
    StripUnpadded(piece);
  }

  /** A text that starts and ends with non-whitespace is its own strip. */
  lemma StripUnpadded(s: string)
    requires |s| > 0 && !IsSpace(s[0]) && !IsSpace(s[|s| - 1])
    ensures Strip(s) == s
  {
    hide *;
    assert "" + s + "" == s;
    StripAround("", s, "");
  }

  lemma NestedPieceWords()
    ensures ' ' !in "public" && ' ' !in "Base<Foo<int>"
  {
  }

  lemma NestedWordStrip(word: string)
    requires word == "Base<Foo<int>"
    ensures StripTemplate(word) == "Base"
  {
    assert "Base" + "<" + "Foo<int" + ">" + "" == word && "Base" + "" == "Base";
    assert '<' !in "Base" && '>' !in "Foo<int" && '\n' !in "Foo<int";
    StripTemplateRemovesSpan("Base", "Foo<int", "");
  }

  lemma BaseIdent(name: string)
    requires name == "Base"
    ensures IsValidIdentifier(name)
  {
    IdentifierIsNormal(name);
  }

  /** A clause of two pieces, neither naming a valid base, draws no edge. */
  lemma NoEdgesOfTwo(clause: string, name: string, p0: string, p1: string)
    requires |clause| > 0 && Split(clause, ',') == [p0, p1]
    requires !IsValidIdentifier(BaseName(p0)) && !IsValidIdentifier(BaseName(p1))
    ensures InheritLines(Some(clause), name) == []
  {
    hide BaseName, IsValidIdentifier, Split, EdgeLine, Strip, StripTemplate, LastWordFrom;
    var pieces := [p0, p1];
    assert pieces[1..] == [p1] && pieces[1..][1..] == [];
    assert EdgeLines([p1], name) == [] + EdgeLines([], name);
    assert EdgeLines(pieces, name) == [] + EdgeLines([p1], name);
  }

  /** A clause of two pieces where only the first names a valid base draws that one edge. */
  lemma FirstEdgeOnly(clause: string, name: string, p0: string, p1: string, b0: string)
    requires |clause| > 0 && Split(clause, ',') == [p0, p1]
    requires BaseName(p0) == b0 && IsValidIdentifier(b0) && !IsValidIdentifier(BaseName(p1))
    ensures InheritLines(Some(clause), name) == [EdgeLine(b0, name)]
  {
    hide BaseName, IsValidIdentifier, Split, EdgeLine, Strip, StripTemplate, LastWordFrom;
    var pieces := [p0, p1];
    assert pieces[1..] == [p1] && pieces[1..][1..] == [];
    assert EdgeLines([p1], name) == [] + EdgeLines([], name);
    assert EdgeLines(pieces, name) == [EdgeLine(b0, name)] + EdgeLines([p1], name);
  }

  /**
    `class D : public Base<int, float> {`: the clause is split at the comma
    inside the argument list, neither piece names a valid base, and no edge
    is drawn.
   */
  lemma CommaTemplateNoEdge(clause: string)
    requires clause == "public Base<int, float>"
    ensures InheritLines(Some(clause), "D") == []
  {
    assert clause == "public Base<int" + "," + " float>";
    SplitAtComma(clause, "public Base<int", " float>");
    UnclosedBase("public Base<int");
    StrayCloseBase(" float>");
    NoEdgesOfTwo(clause, "D", "public Base<int", " float>");
  }

  /**
    `class D : public Base<Foo<int>, float> {`: the nested list closes inside
    the first piece, which then names `Base`, so an edge from `Base` is drawn.
   */
  lemma NestedTemplateEdge(clause: string)
    requires clause == "public Base<Foo<int>, float>"
    ensures InheritLines(Some(clause), "D") == ["Base <|-- D"]
  {
    assert clause == "public Base<Foo<int>" + "," + " float>";
    assert ',' !in "public Base<Foo<int>" && ',' !in " float>";
    assert EdgeLine("Base", "D") == "Base <|-- D";
    hide *;
    SplitAtComma(clause, "public Base<Foo<int>", " float>");
    NestedBase("public Base<Foo<int>");
    StrayCloseBase(" float>");
    FirstEdgeOnly(clause, "D", "public Base<Foo<int>", " float>", "Base");
  }
}

=== FILE: normalize.dfy ===
/**
  The identifier normaliser: removal of `<...>` template argument lists
  and the two character-class validators that decide what the renderer
  may emit.
 */
module Normalize {
  import opened Text

  /**
    Offset in `s` of the `>` that closes a non-greedy `<.*?>` whose `<`
    sits just before `s`. The `.` of the pattern does not match a newline,
    so a newline before the first `>` means there is no match.
   */
  function CloseAngle(s: string): (r: Option<nat>)
    ensures r.Some? ==> r.value < |s| && s[r.value] == '>'
                        && forall k :: 0 <= k < r.value ==> s[k] != '>' && s[k] != '\n'
    ensures r.None? ==> forall k :: 0 <= k < |s| && s[k] == '>' ==> '\n' in s[..k]
  {
    if |s| == 0 then None
    else if s[0] == '>' then Some(0)
    else if s[0] == '\n' then None
    else match CloseAngle(s[1..])
      case None => None
      case Some(k) => Some(k + 1)
  }

  /** `re.sub(r'<.*?>', '', name)`: removes every non-greedy `<...>` span, left to right. */
  function StripTemplate(name: string): (r: string)
    ensures |r| <= |name|
    ensures '<' !in name ==> r == name
    decreases |name|
  {
    if |name| == 0 then ""
    else if name[0] == '<' && CloseAngle(name[1..]).Some? then
      StripTemplate(name[CloseAngle(name[1..]).value + 2..])
    else [name[0]] + StripTemplate(name[1..])
  }

  /** Characters `is_valid_identifier` accepts: word characters and the scope colon. */
  predicate IsIdentChar(c: char) {
    IsWordChar(c) || c == ':'
  }

  /** Characters `is_valid_member` accepts: those of identifiers, `;` and the plain space. */
  predicate IsMemberChar(c: char) {
    IsIdentChar(c) || c == ';' || c == ' '
  }

  /** Whether some character of `s` is one of `chars`. */
  predicate ContainsAny(s: string, chars: string) {
    exists i :: 0 <= i < |s| && s[i] in chars
  }

  /**
    `is_valid_identifier`, check by check. Only the first and the last
    check decide: every character the middle two reject is already
    outside the accepted class.
   */
  function IsValidIdentifier(name: string): (ok: bool)
    ensures ok <==> |name| > 0 && forall i :: 0 <= i < |name| ==> IsIdentChar(name[i])
  {
    if |name| == 0 then false
    else if ContainsAny(name, "()[]*&=,") then false
    else if StartsAt(name, 0, "std::") && '<' in name then false
    else if exists i :: 0 <= i < |name| && !IsIdentChar(name[i]) then false
    else true
  }

  /** `is_valid_member`, check by check; again only the first and the last decide. */
  function IsValidMember(member: string): (ok: bool)
    ensures ok <==> |member| > 0 && forall i :: 0 <= i < |member| ==> IsMemberChar(member[i])
  {
    if |member| == 0 then false
    else if ContainsAny(member, "()[]*&=,") then false
    else if '<' in member || '>' in member then false
    else if exists i :: 0 <= i < |member| && !IsMemberChar(member[i]) then false
    else true
  }

  /** A name made of identifier characters is left alone by the normaliser and accepted. */
  lemma IdentifierIsNormal(name: string)
    requires |name| > 0 && forall i :: 0 <= i < |name| ==> IsIdentChar(name[i])
    ensures StripTemplate(name) == name
    ensures IsValidIdentifier(name)
  {
    assert '<' !in name by {
      forall i | 0 <= i < |name| ensures name[i] != '<' {
        assert IsIdentChar(name[i]);
      }
    }
  }

  /** A member holding a bracket, comma, tilde, tab or newline is rejected. */
  lemma MemberWithForeignCharRejected(member: string, i: nat)
    requires i < |member|
    requires member[i] in "()<>,~\t\n"
    ensures !IsValidMember(member)
  {
    assert !IsMemberChar(member[i]);
  }

  /** `CloseAngle` finds the first `>` when nothing before it is `>` or a newline. */
  lemma {:induction false} CloseAngleFirst(y: string, z: string)
    requires '>' !in y && '\n' !in y
    ensures CloseAngle(y + ">" + z) == Some(|y|)
  {
    if |y| > 0 {
      CloseAngleFirst(y[1..], z);
      assert (y + ">" + z)[1..] == y[1..] + ">" + z;
    }
  }

  /** A closed span at the very start is removed whole. */
  lemma SpanAtStart(y: string, z: string)
    requires '>' !in y && '\n' !in y
    ensures StripTemplate("<" + y + ">" + z) == StripTemplate(z)
  {
    var w := "<" + y + ">" + z;
    assert w[1..] == y + ">" + z;
    CloseAngleFirst(y, z);
    assert w[|y| + 2..] == z;
  }

  /** A character other than `<` at the start is kept. */
  lemma KeepsFirst(c: char, rest: string)
    requires c != '<'
    ensures StripTemplate([c] + rest) == [c] + StripTemplate(rest)
  {
    assert ([c] + rest)[1..] == rest;
  }

  /** `Foo<Bar>` becomes `Foo`: a closed span is removed and the text around it kept. */
  lemma {:induction false} StripTemplateRemovesSpan(x: string, y: string, z: string)
    requires '<' !in x
    requires '>' !in y && '\n' !in y
    ensures StripTemplate(x + "<" + y + ">" + z) == x + StripTemplate(z)
  {
    hide StripTemplate;
    if |x| == 0 {
      assert x + "<" + y + ">" + z == "<" + y + ">" + z;
      SpanAtStart(y, z);
    } else {
      var tail := x[1..] + "<" + y + ">" + z;
      assert x + "<" + y + ">" + z == [x[0]] + tail;
      KeepsFirst(x[0], tail);
      StripTemplateRemovesSpan(x[1..], y, z);
      assert x == [x[0]] + x[1..];
    }
  }

  /** The normaliser only deletes characters: its result is a subsequence of its input. */
  lemma {:induction false} StripTemplateSubsequence(name: string)
    ensures IsSubsequence(StripTemplate(name), name)
    decreases |name|
  {
    if |name| > 0 {
      if name[0] == '<' && CloseAngle(name[1..]).Some? {
        var k := CloseAngle(name[1..]).value;
        StripTemplateSubsequence(name[k + 2..]);
        SubsequenceOfSuffix(StripTemplate(name[k + 2..]), name[..k + 2], name[k + 2..]);
        assert name[..k + 2] + name[k + 2..] == name;
      } else {
        StripTemplateSubsequence(name[1..]);
        var r := StripTemplate(name);
        assert r[0] == name[0] && r[1..] == StripTemplate(name[1..]);
      }
    }
  }

  /** No `<` in `s` opens a span that the normaliser would remove. */
  ghost predicate SpanFree(s: string)
    decreases |s|
  {
    |s| == 0 || ((s[0] == '<' ==> CloseAngle(s[1..]).None?) && SpanFree(s[1..]))
  }

  /** A span-free text is left unchanged. */
  lemma {:induction false} SpanFreeUnchanged(s: string)
    requires SpanFree(s)
    ensures StripTemplate(s) == s
    decreases |s|
  {
    if |s| > 0 {
      SpanFreeUnchanged(s[1..]);
      assert s == [s[0]] + s[1..];
    }
  }

  /** When no `>` closes before a newline, none does after normalising either. */
  lemma {:induction false} OpenAngleStaysOpen(s: string)
    requires CloseAngle(s).None?
    ensures CloseAngle(StripTemplate(s)).None?
    decreases |s|
  {
    if |s| > 0 && s[0] != '\n' {
      OpenAngleStaysOpen(s[1..]);
      var r := StripTemplate(s);
      assert r[1..] == StripTemplate(s[1..]);
    }
  }

  /** The normaliser leaves no removable span behind. */
  lemma {:induction false} StripTemplateSpanFree(name: string)
    ensures SpanFree(StripTemplate(name))
    decreases |name|
  {
    if |name| > 0 {
      if name[0] == '<' && CloseAngle(name[1..]).Some? {
        StripTemplateSpanFree(name[CloseAngle(name[1..]).value + 2..]);
      } else {
        StripTemplateSpanFree(name[1..]);
        var r := StripTemplate(name);
        assert r[1..] == StripTemplate(name[1..]);
        if name[0] == '<' {
          OpenAngleStaysOpen(name[1..]);
        }
      }
    }
  }

  /** Normalising twice is normalising once. */
  lemma StripTemplateIdempotent(name: string)
    ensures StripTemplate(StripTemplate(name)) == StripTemplate(name)
  {
    StripTemplateSpanFree(name);
    SpanFreeUnchanged(StripTemplate(name));
  }

  /** The documented example: `Foo<Bar>` becomes `Foo`. */
  lemma StripTemplateExample()
    ensures StripTemplate("Foo<Bar>") == "Foo"
  {
    StripTemplateRemovesSpan("Foo", "Bar", "");
    assert "Foo" + "<" + "Bar" + ">" + "" == "Foo<Bar>";
  }
}

=== FILE: parser.dfy ===
/**
  `parse_cpp_classes`: one record per header match of a file's text, in
  the order the headers occur, each with its kind, name, inheritance
  clause and the access-tagged members of its body.
 */
module Parser {
  import opened Text
  import opened Scanner
  import opened Normalize
  import opened Classifier

  /** The record the parser builds for one declaration. */
  datatype ClassRecord = ClassRecord(kind: Kind, name: string, inherit: Option<string>, members: seq<Member>)

  /** The record of one discovered declaration. */
  function RecordOf(d: Declaration): ClassRecord {
    ClassRecord(d.header.kind, d.header.name, d.header.inherit, Classify(d.header.kind, d.body))
  }

  /**
    The records of a whole text. Record `i` belongs to the `i`-th header
    match; its members are those of the body that runs from the header's
    `{` to the first `};` after it (empty without one).
   */
  function ParseCppClasses(t: string): (rs: seq<ClassRecord>)
    ensures |rs| == |ScanHeaders(t, 0)|
    ensures forall i :: 0 <= i < |rs| ==>
              var h := ScanHeaders(t, 0)[i];
              && rs[i].kind == h.kind && rs[i].name == h.name && rs[i].inherit == h.inherit
              && MatchHeaderAt(t, h.start) == Some(h)
              && exists body :: IsBodyOf(t, h.end, body) && rs[i].members == Classify(h.kind, body)
  {
    var ds := ScanDeclarations(t);
    seq(|ds|, i requires 0 <= i < |ds| => RecordOf(ds[i]))
  }

  /**
    Every parsed name is a non-empty run of word characters, so the
    renderer's normalisation leaves it alone and its validation accepts
    it: no parsed class is ever dropped from the diagram.
   */
  lemma ParsedNamesRenderable(t: string, i: nat)
    requires i < |ParseCppClasses(t)|
    ensures var name := ParseCppClasses(t)[i].name;
            StripTemplate(name) == name && IsValidIdentifier(name)
  {
    var h := ScanHeaders(t, 0)[i];
    var name := h.name;
    assert forall k :: 0 <= k < |name| ==> IsWordChar(name[k]);
    IdentifierIsNormal(name);
  }

  /**
    A parsed inheritance clause, when present, is non-empty and free of
    `{`, so the renderer's `if inherit:` test takes the branch that
    splits it.
   */
  lemma ParsedInheritNonEmpty(t: string, i: nat)
    requires i < |ParseCppClasses(t)| && ParseCppClasses(t)[i].inherit.Some?
    ensures |ParseCppClasses(t)[i].inherit.value| > 0
    ensures '{' !in ParseCppClasses(t)[i].inherit.value
  {
    hide *;
    var h := ScanHeaders(t, 0)[i];
    MatchHeaderSound(t, h.start);
    InheritOfShape(t, h.start, h);
  }

  /**
    A header anywhere in the text is reported, unless it lies inside the
    span of a reported header: in `struct Q : class B { };` the clause of
    `Q` runs to the first `{`, so `class B {` is covered and not reported.
   */
  lemma ParseFindsEveryHeader(t: string, q: nat)
    requires q <= |t|
    requires MatchHeaderAt(t, q).Some?
    ensures exists i :: 0 <= i < |ParseCppClasses(t)|
                        && ScanHeaders(t, 0)[i].start <= q < ScanHeaders(t, 0)[i].end
  {
    ScanHeadersComplete(t, 0, q);
  }

  /** A text without the words `class` or `struct` yields no records. */
  lemma NoKeywordNoClasses(t: string)
    requires forall q :: 0 <= q <= |t| ==> !StartsAt(t, q, "class") && !StartsAt(t, q, "struct")
    ensures ParseCppClasses(t) == []
  {
    NoKeywordNoHeaders(t, 0);
  }

  /**
    A header with no `};` after its `{` gets the empty body, and so no
    members; nothing fails.
   */
  lemma UnclosedBodyNoMembers(t: string, i: nat)
    requires i < |ParseCppClasses(t)|
    requires forall k :: ScanHeaders(t, 0)[i].end <= k < |t| ==> !ClosesAt(t, k)
    ensures ParseCppClasses(t)[i].members == []
  {
    var h := ScanHeaders(t, 0)[i];
    var body :| IsBodyOf(t, h.end, body) && ParseCppClasses(t)[i].members == Classify(h.kind, body);
    assert body == [];
    assert ScanMembers(body, 0) == [];
  }
}

=== FILE: pipeline.dfy ===
/**
  The pure part of `generate_cpp_uml_from_path`: the records of every
  file's text, in file order, rendered as one diagram. Finding the files
  and reading them are not part of this model; the texts are given.
 */
module Pipeline {
  import opened Text
  import opened Normalize
  import opened Parser
  import opened Render

  /**
    The records of all texts, the records of each text kept together and in
    order. Every record comes from one of the texts.
   */
  function ParseAll(contents: seq<string>): (all: seq<ClassRecord>)
    ensures forall j :: 0 <= j < |all| ==> exists f :: 0 <= f < |contents| && all[j] in ParseCppClasses(contents[f])
  {
    if |contents| == 0 then [] else ParseCppClasses(contents[0]) + ParseAll(contents[1..])
  }

  /** The diagram text for a list of file texts. */
  function GenerateFromContents(contents: seq<string>): (text: string)
    ensures |text| >= 9 && text[..9] == "@startuml"
  {
    var lines := GeneratePlantUml(ParseAll(contents));
    JoinStartsWithFirst(lines, '\n');
    GeneratePlantUmlText(ParseAll(contents))
  }

  /** A join begins with its first piece. */
  lemma {:induction false} JoinStartsWithFirst(parts: seq<string>, sep: char)
    requires |parts| >= 1
    ensures |Join(parts, sep)| >= |parts[0]| && Join(parts, sep)[..|parts[0]|] == parts[0]
  {
    if |parts| > 1 {
      assert Join(parts, sep) == parts[0] + ([sep] + Join(parts[1..], sep));
    }
  }

  /** Parsing a list of texts is parsing each part of the list. */
  lemma {:induction false} ParseAllAppend(xs: seq<string>, ys: seq<string>)
    ensures ParseAll(xs + ys) == ParseAll(xs) + ParseAll(ys)
  {
    hide *;
    if |xs| == 0 {
      assert xs + ys == ys;
      ParseAllEmpty();
    } else {
      var first := ParseCppClasses(xs[0]);
      assert (xs + ys)[0] == xs[0];
      assert (xs + ys)[1..] == xs[1..] + ys;
      ParseAllAppend(xs[1..], ys);
      ParseAllCons(xs + ys);
      ParseAllCons(xs);
      assert ParseAll(xs + ys) == first + (ParseAll(xs[1..]) + ParseAll(ys));
    }
  }

  lemma ParseAllEmpty()
    ensures ParseAll([]) == []
  {
  }

  lemma ParseAllCons(xs: seq<string>)
    requires |xs| > 0
    ensures ParseAll(xs) == ParseCppClasses(xs[0]) + ParseAll(xs[1..])
  {
  }

  /** Every record of every text has a normal, valid name. */
  lemma ParseAllNormal(contents: seq<string>)
    ensures NormalNames(ParseAll(contents))
  {
    var all := ParseAll(contents);
    forall j | 0 <= j < |all| ensures StripTemplate(all[j].name) == all[j].name && IsValidIdentifier(all[j].name) {
      var f :| 0 <= f < |contents| && all[j] in ParseCppClasses(contents[f]);
      var rs := ParseCppClasses(contents[f]);
      var i :| 0 <= i < |rs| && rs[i] == all[j];
      ParsedNamesRenderable(contents[f], i);
    }
  }

  /**
    Every record found in any text is drawn: block `i` of the diagram
    belongs to record `i`, with its valid members and bases.
   */
  lemma EveryClassDrawn(contents: seq<string>)
    ensures |Diagram(ParseAll(contents))| == |ParseAll(contents)|
    ensures forall i :: 0 <= i < |ParseAll(contents)| ==>
              var r := ParseAll(contents)[i];
              Diagram(ParseAll(contents))[i] == Block(r.name, Entries(r.members), Bases(r.inherit))
  {
    ParseAllNormal(contents);
    DiagramKeepsNormal(ParseAll(contents));
  }

  /** Reading the lines of the generated text gives back the diagram of all records. */
  lemma ReadBack(contents: seq<string>)
    ensures ReadDiagram(Split(GenerateFromContents(contents), '\n')) == Some(Diagram(ParseAll(contents)))
  {
    ReadGeneratedText(ParseAll(contents));
  }

  /** Texts without the words `class` or `struct` give the empty diagram. */
  lemma {:induction false} NoKeywordEmptyDiagram(contents: seq<string>)
    requires forall f, q :: 0 <= f < |contents| && 0 <= q <= |contents[f]| ==>
               !StartsAt(contents[f], q, "class") && !StartsAt(contents[f], q, "struct")
    ensures GenerateFromContents(contents) == "@startuml\n@enduml"
  {
    NoKeywordNoRecords(contents);
    NoValidNameEmptyDiagram(ParseAll(contents));
  }

  lemma {:induction false} NoKeywordNoRecords(contents: seq<string>)
    requires forall f, q :: 0 <= f < |contents| && 0 <= q <= |contents[f]| ==>
               !StartsAt(contents[f], q, "class") && !StartsAt(contents[f], q, "struct")
    ensures ParseAll(contents) == []
  {
    if |contents| > 0 {
      NoKeywordNoClasses(contents[0]);
      assert forall f :: 0 <= f < |contents[1..]| ==> contents[1..][f] == contents[f + 1];
      NoKeywordNoRecords(contents[1..]);
    }
  }
}

=== FILE: render.dfy ===
/**
  `generate_plantuml`: the diagram lines for a list of records, and the
  diagram they describe. A record whose normalised name is not a valid
  identifier is skipped; members and bases that fail validation are
  dropped one by one. The declaration kind is ignored: both kinds are
  rendered with the keyword `class`.

  The partner of the renderer is a reader that parses the lines back into
  blocks; reading what the renderer writes gives back the diagram.
 */
module Render {
  import opened Text
  import opened Normalize
  import opened Classifier
  import opened Parser

  /** The visibility glyph of an access level. */
  function Glyph(a: Access): char {
    match a
    case Public => '+'
    case Private => '-'
    case Protected => '#'
  }

  /** The line opening a class block. */
  function OpenLine(name: string): string {
    "class " + name + " {"
  }

  /** The line of one member inside a block. */
  function EntryLine(glyph: char, text: string): string {
    "    " + [glyph] + " " + text
  }

  /** The line of one inheritance edge. */
  function EdgeLine(base: string, name: string): string {
    base + " <|-- " + name
  }

  /** The lines of the members that pass validation, in order. */
  function MemberLines(ms: seq<Member>): seq<string> {
    if |ms| == 0 then []
    else (if IsValidMember(ms[0].text) then [EntryLine(Glyph(ms[0].access), ms[0].text)] else [])
         + MemberLines(ms[1..])
  }

  /**
    A base as written in one comma-separated piece: the last space-separated
    word of the stripped piece, normalised. Every text has exactly one last
    word (`LastWord`, `LastWordUnique`).
   */
  function BaseName(piece: string): (base: string)
    ensures forall k: nat :: LastWordFrom(Strip(piece), k, ' ') ==> base == StripTemplate(Strip(piece)[k..])
  {
    LastWordAt(Strip(piece), ' ');
    StripTemplate(LastWord(Strip(piece), ' '))
  }

  /** `spec base` splits at its one space into the specifier and the base. */
  lemma SplitSpecifier(core: string, spec: string, base: string)
    requires core == spec + " " + base
    requires ' ' !in spec && ' ' !in base
    ensures Split(core, ' ') == [spec, base]
  {
    assert core[|spec|] == ' ';
    assert forall k :: 0 <= k < |spec| ==> core[k] == spec[k];
    FindCharAt(core, 0, |spec|, ' ');
    assert core[..|spec|] == spec;
    assert core[|spec| + 1..] == base;
    assert FindChar(base, 0, ' ') == None;
  }

  /** The base a piece names, when its stripped text is one specifier and one word. */
  lemma BaseNameParts(piece: string, spec: string, base: string)
    requires Strip(piece) == spec + " " + base && ' ' !in spec && ' ' !in base
    ensures BaseName(piece) == StripTemplate(base)
  {
    hide Strip, StripTemplate;
    SplitSpecifier(spec + " " + base, spec, base);
  }

  /**
    A piece made of whitespace, an access specifier, one space, a base of
    identifier characters and whitespace names that base: the specifier
    and the surrounding whitespace are dropped, and the base is drawn.
   */
  lemma BaseOfPiece(piece: string, pre: string, spec: string, base: string, post: string)
    requires piece == pre + (spec + " " + base) + post
    requires forall k :: 0 <= k < |pre| ==> IsSpace(pre[k])
    requires forall k :: 0 <= k < |post| ==> IsSpace(post[k])
    requires |spec| > 0 && !IsSpace(spec[0]) && ' ' !in spec
    requires |base| > 0 && ' ' !in base && !IsSpace(base[|base| - 1])
    requires forall k :: 0 <= k < |base| ==> IsIdentChar(base[k])
    ensures BaseName(piece) == base
    ensures IsValidIdentifier(BaseName(piece))
  {
    var core := spec + " " + base;
    assert core[0] == spec[0] && core[|core| - 1] == base[|base| - 1];
    StripAround(pre, core, post);
    BaseNameParts(piece, spec, base);
    IdentifierIsNormal(base);
  }

  /** A piece whose stripped text is one word names that word, normalised. */
  lemma BaseNameWord(piece: string, w: string)
    requires Strip(piece) == w && ' ' !in w
    ensures BaseName(piece) == StripTemplate(w)
  {
    hide Strip, StripTemplate;
    assert FindChar(w, 0, ' ').None?;
    assert Split(w, ' ') == [w];
  }

  /** The edges for the pieces of a clause whose base names pass validation, in order. */
  function EdgeLines(pieces: seq<string>, name: string): seq<string> {
    if |pieces| == 0 then []
    else (if IsValidIdentifier(BaseName(pieces[0])) then [EdgeLine(BaseName(pieces[0]), name)] else [])
         + EdgeLines(pieces[1..], name)
  }

  /** The edges of a record; an absent or empty clause has none. */
  function InheritLines(inherit: Option<string>, name: string): seq<string> {
    match inherit
    case None => []
    case Some(s) => if |s| == 0 then [] else EdgeLines(Split(s, ','), name)
  }

  /**
    The lines of one record, or none when its normalised name is not valid.
    A drawn record's lines are those of its block: the opening line, its
    valid members' entries, the closing `}` and one edge per valid base.
   */
  function ClassLines(r: ClassRecord): (lines: seq<string>)
    ensures !IsValidIdentifier(StripTemplate(r.name)) ==> lines == []
    ensures IsValidIdentifier(StripTemplate(r.name))
            ==> lines == BlockLines(Block(StripTemplate(r.name), Entries(r.members), Bases(r.inherit)))
  {
    var name := StripTemplate(r.name);
    if !IsValidIdentifier(name) then []
    else
      MemberLinesEncode(r.members);
      InheritLinesEncode(r.inherit, name);
      [OpenLine(name)] + MemberLines(r.members) + ["}"] + InheritLines(r.inherit, name)
  }

  /** The lines of all records, in order. */
  function RecordLines(rs: seq<ClassRecord>): seq<string> {
    if |rs| == 0 then [] else ClassLines(rs[0]) + RecordLines(rs[1..])
  }

  /** The diagram as a list of lines: `@startuml`, the records' lines, `@enduml`. */
  function GeneratePlantUml(rs: seq<ClassRecord>): (lines: seq<string>)
    ensures |lines| >= 2 && lines[0] == "@startuml" && lines[|lines| - 1] == "@enduml"
  {
    ["@startuml"] + RecordLines(rs) + ["@enduml"]
  }

  /** The diagram text: the lines joined with newlines, which splitting at newlines gives back. */
  function GeneratePlantUmlText(rs: seq<ClassRecord>): (text: string)
    ensures Split(text, '\n') == GeneratePlantUml(rs)
  {
    GeneratedNoNewline(rs);
    SplitJoin(GeneratePlantUml(rs), '\n');
    Join(GeneratePlantUml(rs), '\n')
  }

  // ---------------------------------------------------------------------
  // The diagram the lines describe.

  /** One member line: its glyph and its text. */
  datatype Entry = Entry(glyph: char, text: string)

  /** One class block: its name, its member entries and the bases of its edges. */
  datatype Block = Block(name: string, entries: seq<Entry>, bases: seq<string>)

  /** The entries of the members that pass validation. */
  function Entries(ms: seq<Member>): (es: seq<Entry>)
    ensures |es| <= |ms|
    ensures forall i :: 0 <= i < |es| ==> IsValidMember(es[i].text) && es[i].glyph in "+-#"
  {
    if |ms| == 0 then []
    else (if IsValidMember(ms[0].text) then [Entry(Glyph(ms[0].access), ms[0].text)] else [])
         + Entries(ms[1..])
  }

  /** The base names of the pieces that pass validation. */
  function BasesOf(pieces: seq<string>): (bases: seq<string>)
    ensures |bases| <= |pieces|
    ensures forall i :: 0 <= i < |bases| ==> IsValidIdentifier(bases[i])
  {
    if |pieces| == 0 then []
    else DrawnBase(pieces[0]) + BasesOf(pieces[1..])
  }

  /** The base one piece contributes: its base name when that is valid, otherwise none. */
  function DrawnBase(piece: string): (drawn: seq<string>)
    ensures |drawn| <= 1
    ensures forall i :: 0 <= i < |drawn| ==> IsValidIdentifier(drawn[i])
  {
    if IsValidIdentifier(BaseName(piece)) then [BaseName(piece)] else []
  }

  /** The bases of an inheritance clause. */
  function Bases(inherit: Option<string>): (bases: seq<string>)
    ensures forall i :: 0 <= i < |bases| ==> IsValidIdentifier(bases[i])
  {
    match inherit
    case None => []
    case Some(s) => if |s| == 0 then [] else BasesOf(Split(s, ','))
  }

  /** The blocks of the records whose normalised names are valid. */
  function Diagram(rs: seq<ClassRecord>): (bs: seq<Block>)
    ensures |bs| <= |rs|
    ensures WellFormed(bs)
  {
    if |rs| == 0 then []
    else
      var name := StripTemplate(rs[0].name);
      (if IsValidIdentifier(name) then [Block(name, Entries(rs[0].members), Bases(rs[0].inherit))] else [])
      + Diagram(rs[1..])
  }

  /** Names, member texts and bases pass the renderer's validation; glyphs are the three it writes. */
  predicate WellFormed(bs: seq<Block>) {
    forall i :: 0 <= i < |bs| ==>
      && IsValidIdentifier(bs[i].name)
      && (forall j :: 0 <= j < |bs[i].entries| ==> IsValidMember(bs[i].entries[j].text))
      && (forall j :: 0 <= j < |bs[i].entries| ==> bs[i].entries[j].glyph in "+-#")
      && (forall j :: 0 <= j < |bs[i].bases| ==> IsValidIdentifier(bs[i].bases[j]))
  }

  /** The lines of a list of entries. */
  function EntryLines(es: seq<Entry>): seq<string> {
    if |es| == 0 then [] else [EntryLine(es[0].glyph, es[0].text)] + EntryLines(es[1..])
  }

  /** The edge lines of a list of bases. */
  function BaseLines(bases: seq<string>, name: string): seq<string> {
    if |bases| == 0 then [] else [EdgeLine(bases[0], name)] + BaseLines(bases[1..], name)
  }

  /** The lines of one block. */
  function BlockLines(b: Block): seq<string> {
    [OpenLine(b.name)] + EntryLines(b.entries) + ["}"] + BaseLines(b.bases, b.name)
  }

  /** The lines of a list of blocks. */
  function EncodeBlocks(bs: seq<Block>): seq<string> {
    if |bs| == 0 then [] else BlockLines(bs[0]) + EncodeBlocks(bs[1..])
  }

  // ---------------------------------------------------------------------
  // Reading the lines back.

  /** The name of an opening line. */
  function ParseOpen(line: string): Option<string> {
    if |line| >= 8 && line[..6] == "class " && line[|line| - 2..] == " {" then Some(line[6..|line| - 2])
    else None
  }

  /** The entry of a member line. */
  function ParseEntry(line: string): Option<Entry> {
    if |line| >= 6 && line[..4] == "    " && line[5] == ' ' then Some(Entry(line[4], line[6..]))
    else None
  }

  /** The base of an edge line pointing at `name`. */
  function ParseEdge(line: string, name: string): Option<string> {
    var suffix := " <|-- " + name;
    if |line| >= |suffix| && line[|line| - |suffix|..] == suffix then Some(line[..|line| - |suffix|])
    else None
  }

  /** Member lines up to and including the closing `}`; the entries and what follows. */
  function ReadEntries(lines: seq<string>): (r: Option<(seq<Entry>, seq<string>)>)
    ensures r.Some? ==> |r.value.1| < |lines|
  {
    if |lines| == 0 then None
    else if lines[0] == "}" then Some(([], lines[1..]))
    else match ParseEntry(lines[0])
      case None => None
      case Some(e) =>
        match ReadEntries(lines[1..])
        case None => None
        case Some(rest) => Some(([e] + rest.0, rest.1))
  }

  /** The edge lines pointing at `name` that come first; their bases and what follows. */
  function ReadBases(lines: seq<string>, name: string): (r: (seq<string>, seq<string>))
    ensures |r.1| <= |lines|
  {
    if |lines| == 0 then ([], [])
    else match ParseEdge(lines[0], name)
      case None => ([], lines)
      case Some(b) =>
        var rest := ReadBases(lines[1..], name);
        ([b] + rest.0, rest.1)
  }

  /** The blocks of a list of lines, if it is made of blocks only. */
  function DecodeBlocks(lines: seq<string>): Option<seq<Block>>
    decreases |lines|
  {
    if |lines| == 0 then Some([])
    else match ParseOpen(lines[0])
      case None => None
      case Some(name) =>
        match ReadEntries(lines[1..])
        case None => None
        case Some(er) =>
          var br := ReadBases(er.1, name);
          match DecodeBlocks(br.1)
          case None => None
          case Some(bs) => Some([Block(name, er.0, br.0)] + bs)
  }

  /** The blocks of a whole diagram, between `@startuml` and `@enduml`. */
  function ReadDiagram(lines: seq<string>): Option<seq<Block>> {
    if |lines| >= 2 && lines[0] == "@startuml" && lines[|lines| - 1] == "@enduml" then
      DecodeBlocks(lines[1..|lines| - 1])
    else None
  }

  // ---------------------------------------------------------------------
  // The renderer writes the diagram.

  lemma {:induction false} MemberLinesEncode(ms: seq<Member>)
    ensures MemberLines(ms) == EntryLines(Entries(ms))
  {
    if |ms| > 0 {
      MemberLinesEncode(ms[1..]);
      EntryLinesAppend(if IsValidMember(ms[0].text) then [Entry(Glyph(ms[0].access), ms[0].text)] else [],
                       Entries(ms[1..]));
    }
  }

  lemma {:induction false} EntryLinesAppend(xs: seq<Entry>, ys: seq<Entry>)
    ensures EntryLines(xs + ys) == EntryLines(xs) + EntryLines(ys)
  {
    if |xs| > 0 {
      assert (xs + ys)[1..] == xs[1..] + ys;
      EntryLinesAppend(xs[1..], ys);
    } else {
      assert xs + ys == ys;
    }
  }

  lemma {:induction false} EdgeLinesEncode(pieces: seq<string>, name: string)
    ensures EdgeLines(pieces, name) == BaseLines(BasesOf(pieces), name)
  {
    if |pieces| > 0 {
      EdgeLinesEncode(pieces[1..], name);
      var first := DrawnBase(pieces[0]);
      BaseLinesAppend(first, BasesOf(pieces[1..]), name);
    }
  }

  /** The edges of a clause are the edge lines of its bases. */
  lemma InheritLinesEncode(inherit: Option<string>, name: string)
    ensures InheritLines(inherit, name) == BaseLines(Bases(inherit), name)
  {
    match inherit
    case None =>
    case Some(s) =>
      if |s| > 0 {
        EdgeLinesEncode(Split(s, ','), name);
      }
  }

  lemma {:induction false} BaseLinesAppend(xs: seq<string>, ys: seq<string>, name: string)
    ensures BaseLines(xs + ys, name) == BaseLines(xs, name) + BaseLines(ys, name)
  {
    if |xs| > 0 {
      assert (xs + ys)[1..] == xs[1..] + ys;
      BaseLinesAppend(xs[1..], ys, name);
    } else {
      assert xs + ys == ys;
    }
  }

  lemma {:induction false} EncodeBlocksAppend(xs: seq<Block>, ys: seq<Block>)
    ensures EncodeBlocks(xs + ys) == EncodeBlocks(xs) + EncodeBlocks(ys)
  {
    if |xs| > 0 {
      assert (xs + ys)[1..] == xs[1..] + ys;
      EncodeBlocksAppend(xs[1..], ys);
    } else {
      assert xs + ys == ys;
    }
  }

  /** The renderer's lines for the records are the lines of the blocks of their diagram. */
  lemma {:induction false} RecordLinesEncode(rs: seq<ClassRecord>)
    ensures RecordLines(rs) == EncodeBlocks(Diagram(rs))
  {
    if |rs| > 0 {
      RecordLinesEncode(rs[1..]);
      var r := rs[0];
      var name := StripTemplate(r.name);
      if IsValidIdentifier(name) {
        var b := Block(name, Entries(r.members), Bases(r.inherit));
        EncodeBlocksAppend([b], Diagram(rs[1..]));
      } else {
        assert Diagram(rs) == Diagram(rs[1..]);
      }
    }
  }

  // ---------------------------------------------------------------------
  // Reading what is written.

  lemma ParseEntryLine(g: char, text: string)
    ensures ParseEntry(EntryLine(g, text)) == Some(Entry(g, text))
  {
    var line := EntryLine(g, text);
    assert line[..4] == "    " && line[4] == g && line[5] == ' ';
    assert line[6..] == text;
  }

  lemma {:induction false} ReadEntriesEncode(es: seq<Entry>, rest: seq<string>)
    ensures ReadEntries(EntryLines(es) + ["}"] + rest) == Some((es, rest))
  {
    var lines := EntryLines(es) + ["}"] + rest;
    if |es| == 0 {
      assert lines == ["}"] + rest;
      assert lines[1..] == rest;
    } else {
      var line := EntryLine(es[0].glyph, es[0].text);
      assert lines[0] == line;
      assert line[0] == ' ';
      ParseEntryLine(es[0].glyph, es[0].text);
      assert lines[1..] == EntryLines(es[1..]) + ["}"] + rest;
      ReadEntriesEncode(es[1..], rest);
      assert [es[0]] + es[1..] == es;
    }
  }

  lemma ParseEdgeLine(base: string, name: string)
    ensures ParseEdge(EdgeLine(base, name), name) == Some(base)
  {
    var line := EdgeLine(base, name);
    var suffix := " <|-- " + name;
    assert line == base + suffix;
    assert line[|line| - |suffix|..] == suffix;
    assert line[..|line| - |suffix|] == base;
  }

  /** An opening line is never read as an edge to a valid name: it ends with `{`. */
  lemma ParseEdgeOpen(other: string, name: string)
    requires IsValidIdentifier(name)
    ensures ParseEdge(OpenLine(other), name).None?
  {
    var line := OpenLine(other);
    var suffix := " <|-- " + name;
    assert line[|line| - 1] == '{';
    assert IsIdentChar(name[|name| - 1]);
    assert suffix[|suffix| - 1] == name[|name| - 1];
  }

  lemma {:induction false} ReadBasesEncode(bases: seq<string>, name: string, rest: seq<string>)
    requires |rest| == 0 || ParseEdge(rest[0], name).None?
    ensures ReadBases(BaseLines(bases, name) + rest, name) == (bases, rest)
  {
    var lines := BaseLines(bases, name) + rest;
    if |bases| == 0 {
      assert lines == rest;
    } else {
      assert lines[0] == EdgeLine(bases[0], name);
      ParseEdgeLine(bases[0], name);
      assert lines[1..] == BaseLines(bases[1..], name) + rest;
      ReadBasesEncode(bases[1..], name, rest);
      assert [bases[0]] + bases[1..] == bases;
    }
  }

  lemma ParseOpenLine(name: string)
    ensures ParseOpen(OpenLine(name)) == Some(name)
  {
    var line := OpenLine(name);
    assert line[..6] == "class ";
    assert line[|line| - 2..] == " {";
    assert line[6..|line| - 2] == name;
  }

  /** Reading the lines of well-formed blocks gives back the blocks. */
  lemma {:induction false} DecodeEncode(bs: seq<Block>)
    requires WellFormed(bs)
    ensures DecodeBlocks(EncodeBlocks(bs)) == Some(bs)
  {
    hide *;
    if |bs| > 0 {
      var b := bs[0];
      var tail := EncodeBlocks(bs[1..]);
      EncodeCons(bs);
      WellFormedTail(bs);
      if |bs[1..]| > 0 {
        EncodeCons(bs[1..]);
        assert tail[0] == OpenLine(bs[1].name);
        ParseEdgeOpen(bs[1].name, b.name);
      } else {
        EncodeNil();
      }
      DecodeEncode(bs[1..]);
      DecodeStep(b, tail);
      assert [b] + bs[1..] == bs;
    } else {
      EncodeNil();
    }
  }

  /** No blocks, no lines, and reading no lines gives no blocks. */
  lemma EncodeNil()
    ensures EncodeBlocks([]) == [] && DecodeBlocks([]) == Some([])
  {
  }

  /** The lines of a non-empty list of blocks, the first block's spelled out. */
  lemma {:induction false} EncodeCons(bs: seq<Block>)
    requires |bs| > 0
    ensures EncodeBlocks(bs)
            == [OpenLine(bs[0].name)] + (EntryLines(bs[0].entries) + ["}"] + (BaseLines(bs[0].bases, bs[0].name) + EncodeBlocks(bs[1..])))
  {
    hide OpenLine, EntryLines, BaseLines;
    var b := bs[0];
    assert EncodeBlocks(bs) == BlockLines(b) + EncodeBlocks(bs[1..]);
    assert BlockLines(b) == [OpenLine(b.name)] + EntryLines(b.entries) + ["}"] + BaseLines(b.bases, b.name);
  }

  /** The blocks after the first of a well-formed list are well-formed. */
  lemma {:induction false} WellFormedTail(bs: seq<Block>)
    requires |bs| > 0 && WellFormed(bs)
    ensures IsValidIdentifier(bs[0].name) && WellFormed(bs[1..])
  {
    forall i | 0 <= i < |bs[1..]| ensures bs[1..][i] == bs[i + 1] {
    }
  }

  /** Reading one encoded block in front of lines that do not continue its edges. */
  lemma {:induction false} DecodeStep(b: Block, tail: seq<string>)
    requires |tail| == 0 || ParseEdge(tail[0], b.name).None?
    requires DecodeBlocks(tail).Some?
    ensures DecodeBlocks([OpenLine(b.name)] + (EntryLines(b.entries) + ["}"] + (BaseLines(b.bases, b.name) + tail)))
            == Some([b] + DecodeBlocks(tail).value)
  {
    var rest := BaseLines(b.bases, b.name) + tail;
    var lines := [OpenLine(b.name)] + (EntryLines(b.entries) + ["}"] + rest);
    assert lines[0] == OpenLine(b.name);
    assert lines[1..] == EntryLines(b.entries) + ["}"] + rest;
    ParseOpenLine(b.name);
    ReadEntriesEncode(b.entries, rest);
    ReadBasesEncode(b.bases, b.name, tail);
  }

  /** Reading the renderer's lines gives back the diagram of the records. */
  lemma ReadGenerated(rs: seq<ClassRecord>)
    ensures ReadDiagram(GeneratePlantUml(rs)) == Some(Diagram(rs))
  {
    var lines := GeneratePlantUml(rs);
    assert lines[1..|lines| - 1] == RecordLines(rs);
    RecordLinesEncode(rs);
    DecodeEncode(Diagram(rs));
  }

  // ---------------------------------------------------------------------
  // What the lines are made of.

  /** No line holds a newline, so joining the lines with newlines keeps them apart. */
  predicate NoNewline(lines: seq<string>) {
    forall i :: 0 <= i < |lines| ==> '\n' !in lines[i]
  }

  lemma ValidIdentifierNoNewline(name: string)
    requires IsValidIdentifier(name)
    ensures '\n' !in name
  {
    forall k | 0 <= k < |name| ensures name[k] != '\n' {
      assert IsIdentChar(name[k]);
    }
  }

  lemma ValidMemberNoNewline(text: string)
    requires IsValidMember(text)
    ensures '\n' !in text
  {
    forall k | 0 <= k < |text| ensures text[k] != '\n' {
      assert IsMemberChar(text[k]);
    }
  }

  lemma {:induction false} EntryLinesNoNewline(es: seq<Entry>)
    requires forall j :: 0 <= j < |es| ==> IsValidMember(es[j].text) && es[j].glyph in "+-#"
    ensures NoNewline(EntryLines(es))
  {
    if |es| > 0 {
      EntryLinesNoNewline(es[1..]);
      ValidMemberNoNewline(es[0].text);
      var line := EntryLine(es[0].glyph, es[0].text);
      assert line == "    " + [es[0].glyph] + " " + es[0].text;
      assert forall k :: 6 <= k < |line| ==> line[k] == es[0].text[k - 6];
      assert '\n' !in line;
    }
  }

  lemma {:induction false} BaseLinesNoNewline(bases: seq<string>, name: string)
    requires IsValidIdentifier(name)
    requires forall j :: 0 <= j < |bases| ==> IsValidIdentifier(bases[j])
    ensures NoNewline(BaseLines(bases, name))
  {
    if |bases| > 0 {
      BaseLinesNoNewline(bases[1..], name);
      ValidIdentifierNoNewline(bases[0]);
      ValidIdentifierNoNewline(name);
      var line := EdgeLine(bases[0], name);
      assert line == bases[0] + " <|-- " + name;
      assert '\n' !in line;
    }
  }

  lemma {:induction false} EncodeNoNewline(bs: seq<Block>)
    requires WellFormed(bs)
    ensures NoNewline(EncodeBlocks(bs))
  {
    if |bs| > 0 {
      var b := bs[0];
      assert WellFormed(bs[1..]) by {
        forall i | 0 <= i < |bs[1..]| ensures IsValidIdentifier(bs[1..][i].name) {
          assert bs[1..][i] == bs[i + 1];
        }
      }
      EncodeNoNewline(bs[1..]);
      EntryLinesNoNewline(b.entries);
      BaseLinesNoNewline(b.bases, b.name);
      ValidIdentifierNoNewline(b.name);
      assert '\n' !in OpenLine(b.name);
    }
  }

  /** Every line of the diagram is free of newlines. */
  lemma {:induction false} GeneratedNoNewline(rs: seq<ClassRecord>)
    ensures NoNewline(GeneratePlantUml(rs))
  {
    hide *;
    var lines := GeneratePlantUml(rs);
    var body := RecordLines(rs);
    GenerateFrame(rs);
    RecordLinesEncode(rs);
    EncodeNoNewline(Diagram(rs));
    assert NoNewline(body);
    NoNewlineFrame(body);
  }

  /** The diagram's lines are its records' lines between the two markers. */
  lemma GenerateFrame(rs: seq<ClassRecord>)
    ensures GeneratePlantUml(rs) == ["@startuml"] + RecordLines(rs) + ["@enduml"]
  {
  }

  /** The two markers hold no newline. */
  lemma {:induction false} NoNewlineFrame(body: seq<string>)
    requires NoNewline(body)
    ensures NoNewline(["@startuml"] + body + ["@enduml"])
  {
    var lines := ["@startuml"] + body + ["@enduml"];
    forall i | 0 <= i < |lines| ensures '\n' !in lines[i] {
      if 0 < i < |lines| - 1 {
        assert lines[i] == body[i - 1];
      }
    }
  }

  /** Reading the lines of the diagram text gives back the diagram of the records. */
  lemma ReadGeneratedText(rs: seq<ClassRecord>)
    ensures ReadDiagram(Split(GeneratePlantUmlText(rs), '\n')) == Some(Diagram(rs))
  {
    ReadGenerated(rs);
  }

  /** Names the normaliser leaves alone and the validator accepts. */
  predicate NormalNames(rs: seq<ClassRecord>) {
    forall i :: 0 <= i < |rs| ==> StripTemplate(rs[i].name) == rs[i].name && IsValidIdentifier(rs[i].name)
  }

  /**
    When every name is already normal, no record is skipped: block `i`
    belongs to record `i`, with its valid members and bases.
   */
  lemma {:induction false} DiagramKeepsNormal(rs: seq<ClassRecord>)
    requires NormalNames(rs)
    ensures |Diagram(rs)| == |rs|
    ensures forall i :: 0 <= i < |rs| ==>
              Diagram(rs)[i] == Block(rs[i].name, Entries(rs[i].members), Bases(rs[i].inherit))
  {
    if |rs| > 0 {
      assert NormalNames(rs[1..]) by {
        forall i | 0 <= i < |rs[1..]| ensures rs[1..][i] == rs[i + 1] { }
      }
      DiagramKeepsNormal(rs[1..]);
      forall i | 1 <= i < |rs|
        ensures Diagram(rs)[i] == Block(rs[i].name, Entries(rs[i].members), Bases(rs[i].inherit))
      {
        assert Diagram(rs)[i] == Diagram(rs[1..])[i - 1];
        assert rs[1..][i - 1] == rs[i];
      }
    }
  }

  /** Without a record with a valid name the diagram is its two delimiting lines only. */
  lemma {:induction false} NoValidNameEmptyDiagram(rs: seq<ClassRecord>)
    requires forall i :: 0 <= i < |rs| ==> !IsValidIdentifier(StripTemplate(rs[i].name))
    ensures GeneratePlantUml(rs) == ["@startuml", "@enduml"]
    ensures GeneratePlantUmlText(rs) == "@startuml\n@enduml"
  {
    RecordLinesEncode(rs);
    NoValidNameNoBlocks(rs);
    assert RecordLines(rs) == [];
    assert GeneratePlantUml(rs) == ["@startuml", "@enduml"];
    DelimitersText();
  }

  lemma DelimitersText()
    ensures Join(["@startuml", "@enduml"], '\n') == "@startuml\n@enduml"
  {
    var lines := ["@startuml", "@enduml"];
    assert lines[1..] == ["@enduml"];
    assert Join(lines[1..], '\n') == "@enduml";
  }

  lemma {:induction false} NoValidNameNoBlocks(rs: seq<ClassRecord>)
    requires forall i :: 0 <= i < |rs| ==> !IsValidIdentifier(StripTemplate(rs[i].name))
    ensures Diagram(rs) == []
  {
    if |rs| > 0 {
      assert forall i :: 0 <= i < |rs[1..]| ==> rs[1..][i] == rs[i + 1];
      NoValidNameNoBlocks(rs[1..]);
    }
  }

  /**
    A member with a parameter list is never drawn: its text holds the `(`
    that opens the list, which the member validator rejects.
   */
  lemma MethodNeverDrawn(body: string, p: nat, a: nat, c: nat, d: nat, e: nat, end: nat)
    requires FieldAt(body, p, a, c, d, e, end) && end != e + 1
    ensures !IsValidMember(body[p..end])
  {
    assert body[p..end][e - p] == '(';
    MemberWithForeignCharRejected(body[p..end], e - p);
  }
}

=== FILE: scanner.dfy ===
/**
  The declaration scanner: the header pattern
  `(class|struct)\s+(\w+)(\s*:\s*([^{]+))?\s*{` as a hand-written matcher,
  its left-to-right `finditer` over a whole text, and the body that runs
  from just after the `{` to the first `};`.
 */
module Scanner {
  import opened Text

  datatype Kind = Class | Struct

  /** The keyword that introduces a declaration of the given kind. */
  function Keyword(kind: Kind): string {
    match kind
    case Class => "class"
    case Struct => "struct"
  }

  /**
    One match of the header pattern: the keyword, the name (group 2), the
    inheritance clause (group 4, absent when the optional group did not
    take part), where the match starts, where the name starts, and the
    position just after the `{`.
   */
  datatype Header = Header(kind: Kind, name: string, inherit: Option<string>,
                           start: nat, nameStart: nat, end: nat)

  /** A discovered declaration: its header and its body text. */
  datatype Declaration = Declaration(header: Header, body: string)

  predicate AllSpace(s: string) {
    forall k :: 0 <= k < |s| ==> IsSpace(s[k])
  }

  predicate AllWord(s: string) {
    forall k :: 0 <= k < |s| ==> IsWordChar(s[k])
  }

  /** The keyword at `p`, if any; `class` is tried before `struct`. */
  function KeywordAt(t: string, p: nat): Option<Kind> {
    if StartsAt(t, p, "class") then Some(Class)
    else if StartsAt(t, p, "struct") then Some(Struct)
    else None
  }

  /**
    The inheritance group after its colon, `\s*([^{]+)` followed by the
    pattern's closing `\s*{`, tried at `i`: the clause (group 4) and the
    position just after the `{`. The clause starts at the first
    non-space and runs to the first `{`; when the `{` comes right after
    the whitespace the `\s*` gives back one whitespace character, and when
    it comes right after the colon the group fails.
   */
  function ClauseAt(t: string, i: nat): (m: Option<(string, nat)>)
    requires i <= |t|
    ensures m.Some? ==> i < m.value.1 <= |t| && t[m.value.1 - 1] == '{' && |m.value.0| > 0
  {
    var s := SkipWhile(t, i, IsSpace);
    match FindChar(t, s, '{')
    case None => None
    case Some(o) =>
      if s < o then Some((t[s..o], o + 1))
      else if i < s then Some((t[s - 1..o], o + 1))
      else None
  }

  /**
    What follows the name, tried at `c`: the optional group
    `(\s*:\s*([^{]+))?` and then `\s*{`. The group is tried first; when
    it fails the plain `\s*{` is tried, which cannot succeed after a colon.
   */
  function RestAt(t: string, c: nat): (m: Option<(Option<string>, nat)>)
    requires c <= |t|
    ensures m.Some? ==> c < m.value.1 <= |t| && t[m.value.1 - 1] == '{'
  {
    var r := SkipWhile(t, c, IsSpace);
    if r < |t| && t[r] == ':' then
      match ClauseAt(t, r + 1)
      case None => None
      case Some(x) => Some((Some(x.0), x.1))
    else if r < |t| && t[r] == '{' then Some((None, r + 1))
    else None
  }

  /**
    The header pattern tried at position `p`. The whitespace and name runs
    are maximal: the regex engine cannot give any of them back, since the
    element after each run cannot match the character it would free.
   */
  function MatchHeaderAt(t: string, p: nat): (m: Option<Header>)
    requires p <= |t|
    ensures m.Some? ==> m.value.start == p < m.value.end <= |t| && t[m.value.end - 1] == '{'
    ensures m.Some? ==> |m.value.name| > 0 && AllWord(m.value.name)
  {
    match KeywordAt(t, p)
    case None => None
    case Some(kind) =>
      var a := p + |Keyword(kind)|;
      var b := SkipWhile(t, a, IsSpace);
      var c := SkipWhile(t, b, IsWordChar);
      if b == a || c == b then None
      else
        var name := t[b..c];
        assert |name| == c - b > 0;
        WordSlice(t, b, c);
        match RestAt(t, c)
        case None => None
        case Some(rest) => Some(Header(kind, name, rest.0, p, b, rest.1))
  }

  /**
    Declarative reading of the inheritance group after its colon: from `i`,
    whitespace, then the non-empty clause `s` free of `{`, then the `{`
    just before `end`. The clause starts with a non-space character unless
    it is a single whitespace character.
   */
  ghost predicate ClauseShape(t: string, i: nat, s: string, end: nat) {
    && 0 < |s| && i + |s| < end <= |t|
    && AllSpace(t[i..end - 1 - |s|])
    && t[end - 1 - |s|..end - 1] == s
    && t[end - 1] == '{'
    && '{' !in s
    && (IsSpace(s[0]) ==> |s| == 1)
  }

  /**
    Declarative reading of what follows the name at `c`: whitespace and
    `{`; or whitespace, a colon and the inheritance clause.
   */
  ghost predicate RestShape(t: string, c: nat, inherit: Option<string>, end: nat) {
    match inherit
    case None => c < end <= |t| && AllSpace(t[c..end - 1]) && t[end - 1] == '{'
    case Some(s) =>
      exists r :: c <= r < |t| && AllSpace(t[c..r]) && t[r] == ':' && ClauseShape(t, r + 1, s, end)
  }

  /**
    Declarative reading of one header match at `p`: the keyword, at least
    one whitespace character, a maximal run of word characters as the name,
    then the rest as `RestShape` describes it.
   */
  ghost predicate HeaderShape(t: string, p: nat, h: Header) {
    var kw := Keyword(h.kind);
    var nameEnd := h.nameStart + |h.name|;
    && h.start == p
    && StartsAt(t, p, kw)
    && p + |kw| < h.nameStart
    && nameEnd < |t|
    && AllSpace(t[p + |kw|..h.nameStart])
    && t[h.nameStart..nameEnd] == h.name
    && |h.name| > 0 && AllWord(h.name) && !IsWordChar(t[nameEnd])
    && RestShape(t, nameEnd, h.inherit, h.end)
  }

  /** A slice of word characters is a word. */
  lemma WordSlice(t: string, b: nat, c: nat)
    requires b <= c <= |t| && forall k :: b <= k < c ==> IsWordChar(t[k])
    ensures AllWord(t[b..c])
  {
    assert forall k :: 0 <= k < c - b ==> t[b..c][k] == t[b + k];
  }

  /** `SkipWhile` stops exactly at the first character outside the class. */
  lemma {:induction false} SkipWhileAt(s: string, i: nat, j: nat, P: char -> bool)
    requires i <= j <= |s|
    requires forall k :: i <= k < j ==> P(s[k])
    requires j == |s| || !P(s[j])
    ensures SkipWhile(s, i, P) == j
    decreases j - i
  {
    if i < j {
      SkipWhileAt(s, i + 1, j, P);
    }
  }

  lemma ClauseSound(t: string, i: nat)
    requires i <= |t|
    requires ClauseAt(t, i).Some?
    ensures ClauseShape(t, i, ClauseAt(t, i).value.0, ClauseAt(t, i).value.1)
  {
    var s := SkipWhile(t, i, IsSpace);
    var o := FindChar(t, s, '{').value;
    var x := ClauseAt(t, i).value.0;
    if s < o {
      assert x == t[s..o];
    } else {
      assert x == t[s - 1..o];
    }
  }

  lemma ClauseComplete(t: string, i: nat, s: string, end: nat)
    requires i <= |t|
    requires ClauseShape(t, i, s, end)
    ensures ClauseAt(t, i) == Some((s, end))
  {
    var gapEnd := end - 1 - |s|;
    assert forall k :: i <= k < gapEnd ==> t[k] == t[i..gapEnd][k - i];
    assert forall k :: gapEnd <= k < end - 1 ==> t[k] == s[k - gapEnd];
    if IsSpace(s[0]) {
      SkipWhileAt(t, i, end - 1, IsSpace);
    } else {
      SkipWhileAt(t, i, gapEnd, IsSpace);
    }
    var s2 := SkipWhile(t, i, IsSpace);
    assert forall k :: s2 <= k < end - 1 ==> t[k] != '{';
    assert FindChar(t, s2, '{') == Some(end - 1);
  }

  lemma {:induction false} RestSound(t: string, c: nat)
    requires c <= |t|
    requires RestAt(t, c).Some?
    ensures RestShape(t, c, RestAt(t, c).value.0, RestAt(t, c).value.1)
  {
    hide ClauseShape, ClauseAt;
    var r := SkipWhile(t, c, IsSpace);
    assert AllSpace(t[c..r]) by {
      assert forall k :: 0 <= k < r - c ==> t[c..r][k] == t[c + k];
    }
    if r < |t| && t[r] == ':' {
      var x := ClauseAt(t, r + 1).value;
      assert RestAt(t, c).value == (Some(x.0), x.1);
      ClauseSound(t, r + 1);
      RestShapeOfColon(t, c, r, x.0, x.1);
    }
  }

  /** Whitespace, a colon and a clause make the second form of the rest. */
  lemma RestShapeOfColon(t: string, c: nat, r: nat, s: string, end: nat)
    requires c <= r < |t| && AllSpace(t[c..r]) && t[r] == ':'
    requires ClauseShape(t, r + 1, s, end)
    ensures RestShape(t, c, Some(s), end)
  {
    hide ClauseShape;
  }

  lemma RestComplete(t: string, c: nat, inherit: Option<string>, end: nat)
    requires c <= |t|
    requires RestShape(t, c, inherit, end)
    ensures RestAt(t, c) == Some((inherit, end))
  {
    if inherit.None? {
      assert forall k :: c <= k < end - 1 ==> t[k] == t[c..end - 1][k - c];
      SkipWhileAt(t, c, end - 1, IsSpace);
    } else {
      var s := inherit.value;
      var r :| c <= r < |t| && AllSpace(t[c..r]) && t[r] == ':' && ClauseShape(t, r + 1, s, end);
      RestAfterColon(t, c, r, s, end);
    }
  }

  lemma {:induction false} RestAfterColon(t: string, c: nat, r: nat, s: string, end: nat)
    requires c <= r < |t| && AllSpace(t[c..r]) && t[r] == ':'
    requires ClauseShape(t, r + 1, s, end)
    ensures RestAt(t, c) == Some((Some(s), end))
  {
    hide ClauseShape, ClauseAt;
    assert forall k :: c <= k < r ==> t[k] == t[c..r][k - c];
    SkipWhileAt(t, c, r, IsSpace);
    ClauseComplete(t, r + 1, s, end);
  }

  /** Every match the matcher reports has the declarative shape. */
  lemma MatchHeaderSound(t: string, p: nat)
    requires p <= |t|
    requires MatchHeaderAt(t, p).Some?
    ensures HeaderShape(t, p, MatchHeaderAt(t, p).value)
  {
    hide MatchHeaderAt, KeywordAt, RestAt, RestShape, ClauseShape, SkipWhile;
    var h := MatchHeaderAt(t, p).value;
    PartsOfHeader(t, p);
    var a := p + |Keyword(h.kind)|;
    var b := h.nameStart;
    var c := b + |h.name|;
    RestSound(t, c);
    assert AllSpace(t[a..b]) by {
      assert forall k :: a <= k < b ==> IsSpace(t[k]);
      assert forall k :: 0 <= k < b - a ==> t[a..b][k] == t[a + k];
    }
    assert c < |t| && !IsWordChar(t[c]);
  }

  /** The parts a header match is assembled from. */
  lemma {:induction false} PartsOfHeader(t: string, p: nat)
    requires p <= |t| && MatchHeaderAt(t, p).Some?
    ensures var h := MatchHeaderAt(t, p).value;
            var a := p + |Keyword(h.kind)|;
            && KeywordAt(t, p) == Some(h.kind) && StartsAt(t, p, Keyword(h.kind))
            && SkipWhile(t, a, IsSpace) == h.nameStart > a
            && SkipWhile(t, h.nameStart, IsWordChar) == h.nameStart + |h.name| > h.nameStart
            && h.name == t[h.nameStart..h.nameStart + |h.name|]
            && RestAt(t, h.nameStart + |h.name|) == Some((h.inherit, h.end))
  {
    hide RestAt, SkipWhile, StartsAt;
  }

  /** Every position with the declarative shape is matched, with exactly that header. */
  lemma MatchHeaderComplete(t: string, p: nat, h: Header)
    requires p <= |t|
    requires HeaderShape(t, p, h)
    ensures MatchHeaderAt(t, p) == Some(h)
  {
    hide *;
    var nameEnd := h.nameStart + |h.name|;
    KeywordOfShape(t, p, h);
    NameOfShape(t, p, h);
    NameOfHeaderShape(t, p, h);
    RestComplete(t, nameEnd, h.inherit, h.end);
    HeaderOfParts(t, p, h.kind, h.nameStart, nameEnd, (h.inherit, h.end));
  }

  /** A header match assembled from the results of its parts. */
  lemma HeaderOfParts(t: string, p: nat, kind: Kind, b: nat, c: nat, rest: (Option<string>, nat))
    requires p <= |t| && KeywordAt(t, p) == Some(kind)
    requires p + |Keyword(kind)| <= |t|
    requires SkipWhile(t, p + |Keyword(kind)|, IsSpace) == b > p + |Keyword(kind)|
    requires SkipWhile(t, b, IsWordChar) == c > b
    requires RestAt(t, c) == Some(rest)
    ensures MatchHeaderAt(t, p) == Some(Header(kind, t[b..c], rest.0, p, b, rest.1))
  {
    hide KeywordAt, SkipWhile, RestAt;
  }

  lemma NameOfHeaderShape(t: string, p: nat, h: Header)
    requires p <= |t|
    requires HeaderShape(t, p, h)
    ensures h == Header(h.kind, t[h.nameStart..h.nameStart + |h.name|], h.inherit, p, h.nameStart, h.end)
    ensures p + |Keyword(h.kind)| < h.nameStart < h.nameStart + |h.name| < |t|
    ensures RestShape(t, h.nameStart + |h.name|, h.inherit, h.end)
  {
  }

  /** An inheritance clause of a header-shaped match is non-empty and free of `{`. */
  lemma InheritOfShape(t: string, p: nat, h: Header)
    requires p <= |t|
    requires HeaderShape(t, p, h) && h.inherit.Some?
    ensures |h.inherit.value| > 0 && '{' !in h.inherit.value
  {
    var c := h.nameStart + |h.name|;
    var s := h.inherit.value;
    var r :| c <= r < |t| && AllSpace(t[c..r]) && t[r] == ':' && ClauseShape(t, r + 1, s, h.end);
  }

  lemma KeywordOfShape(t: string, p: nat, h: Header)
    requires p <= |t|
    requires HeaderShape(t, p, h)
    ensures KeywordAt(t, p) == Some(h.kind)
  {
    if h.kind == Struct {
      assert t[p] == 's';
    }
  }

  lemma NameOfShape(t: string, p: nat, h: Header)
    requires p <= |t|
    requires HeaderShape(t, p, h)
    ensures SkipWhile(t, p + |Keyword(h.kind)|, IsSpace) == h.nameStart
    ensures SkipWhile(t, h.nameStart, IsWordChar) == h.nameStart + |h.name|
  {
    var a := p + |Keyword(h.kind)|;
    var nameEnd := h.nameStart + |h.name|;
    assert t[h.nameStart] == h.name[0];
    assert forall k :: a <= k < h.nameStart ==> t[k] == t[a..h.nameStart][k - a];
    SkipWhileAt(t, a, h.nameStart, IsSpace);
    assert forall k :: h.nameStart <= k < nameEnd ==> t[k] == h.name[k - h.nameStart];
    SkipWhileAt(t, h.nameStart, nameEnd, IsWordChar);
  }

  /** `finditer`: the header matches from `p` on, leftmost first, resuming after each match. */
  function ScanHeaders(t: string, p: nat): (hs: seq<Header>)
    requires p <= |t|
    ensures forall i :: 0 <= i < |hs| ==> p <= hs[i].start < hs[i].end <= |t| && MatchHeaderAt(t, hs[i].start) == Some(hs[i])
    decreases |t| - p
  {
    if p == |t| then []
    else match MatchHeaderAt(t, p)
      case Some(h) => [h] + ScanHeaders(t, h.end)
      case None => ScanHeaders(t, p + 1)
  }

  /** Headers are reported left to right and never overlap. */
  lemma {:induction false} ScanHeadersOrdered(t: string, p: nat)
    requires p <= |t|
    ensures forall i, j :: 0 <= i < j < |ScanHeaders(t, p)| ==> ScanHeaders(t, p)[i].end <= ScanHeaders(t, p)[j].start
    decreases |t| - p
  {
    hide MatchHeaderAt;
    if p < |t| {
      match MatchHeaderAt(t, p)
      case Some(h) =>
        ScanHeadersOrdered(t, h.end);
        var rest := ScanHeaders(t, h.end);
        var hs := ScanHeaders(t, p);
        assert hs == [h] + rest;
        forall i, j | 0 <= i < j < |hs| ensures hs[i].end <= hs[j].start {
          assert hs[j] == rest[j - 1];
          if i > 0 {
            assert hs[i] == rest[i - 1];
          }
        }
      case None =>
        assert ScanHeaders(t, p) == ScanHeaders(t, p + 1);
        ScanHeadersOrdered(t, p + 1);
    }
  }

  /** Position `q` lies inside one of the header matches `hs`. */
  ghost predicate Covers(hs: seq<Header>, q: nat) {
    exists i :: 0 <= i < |hs| && hs[i].start <= q < hs[i].end
  }

  /**
    No header occurrence is missed: every position where the pattern
    matches is the start of a reported header or lies inside one. In
    particular a declaration nested in another's body is reported, since
    scanning resumes right after the outer `{`.
   */
  lemma {:induction false} ScanHeadersComplete(t: string, p: nat, q: nat)
    requires p <= q <= |t|
    requires MatchHeaderAt(t, q).Some?
    ensures Covers(ScanHeaders(t, p), q)
    decreases |t| - p
  {
    hide MatchHeaderAt;
    var hs := ScanHeaders(t, p);
    assert p < |t|;
    var m := MatchHeaderAt(t, p);
    if m.Some? {
      var h := m.value;
      assert hs == [h] + ScanHeaders(t, h.end);
      if q < h.end {
        assert hs[0].start <= q < hs[0].end;
      } else {
        ScanHeadersComplete(t, h.end, q);
        var rest := ScanHeaders(t, h.end);
        var j :| 0 <= j < |rest| && rest[j].start <= q < rest[j].end;
        assert hs[j + 1] == rest[j];
      }
    } else {
      assert hs == ScanHeaders(t, p + 1);
      assert p != q;
      ScanHeadersComplete(t, p + 1, q);
      var j :| 0 <= j < |hs| && hs[j].start <= q < hs[j].end;
    }
  }

  /** Without the words `class` or `struct` a text has no header at all. */
  lemma {:induction false} NoKeywordNoHeaders(t: string, p: nat)
    requires p <= |t|
    requires forall q :: p <= q <= |t| ==> !StartsAt(t, q, "class") && !StartsAt(t, q, "struct")
    ensures ScanHeaders(t, p) == []
    decreases |t| - p
  {
    if p < |t| {
      assert KeywordAt(t, p).None?;
      NoKeywordNoHeaders(t, p + 1);
    }
  }

  /** Where the header pattern matches nowhere from `p` on, no header is reported. */
  lemma {:induction false} NoMatchNoHeaders(t: string, p: nat)
    requires p <= |t|
    requires forall q :: p <= q <= |t| ==> MatchHeaderAt(t, q).None?
    ensures ScanHeaders(t, p) == []
    decreases |t| - p
  {
    if p < |t| {
      NoMatchNoHeaders(t, p + 1);
    }
  }

  /** The body-close token `};` at position `e`. */
  predicate ClosesAt(t: string, e: nat) {
    e + 1 < |t| && t[e] == '}' && t[e + 1] == ';'
  }

  /** `t.find('};', i)`. */
  function FindClose(t: string, i: nat): (r: Option<nat>)
    requires i <= |t|
    ensures r.Some? ==> i <= r.value && ClosesAt(t, r.value)
                        && forall k :: i <= k < r.value ==> !ClosesAt(t, k)
    ensures r.None? ==> forall k :: i <= k < |t| ==> !ClosesAt(t, k)
    decreases |t| - i
  {
    if i + 1 >= |t| then None
    else if t[i] == '}' && t[i + 1] == ';' then Some(i)
    else FindClose(t, i + 1)
  }

  /**
    `body` is the text from `open` up to, not including, the first `};`
    at or after `open`; or, when there is no such `};`, the empty text.
   */
  ghost predicate IsBodyOf(t: string, open: nat, body: string) {
    || (&& open + |body| <= |t|
        && t[open..open + |body|] == body
        && ClosesAt(t, open + |body|)
        && forall k :: open <= k < open + |body| ==> !ClosesAt(t, k))
    || (body == [] && forall k :: open <= k < |t| ==> !ClosesAt(t, k))
  }

  /** `t[open:end] if end != -1 else ''` with `end = t.find('};', open)`. */
  function BodyAt(t: string, open: nat): (body: string)
    requires open <= |t|
    ensures IsBodyOf(t, open, body)
  {
    match FindClose(t, open)
    case Some(e) => t[open..e]
    case None => ""
  }

  /** Every header of the text, in order, each with its body. */
  function ScanDeclarations(t: string): (ds: seq<Declaration>)
    ensures |ds| == |ScanHeaders(t, 0)|
    ensures forall i :: 0 <= i < |ds| ==> ds[i].header == ScanHeaders(t, 0)[i]
    ensures forall i :: 0 <= i < |ds| ==> IsBodyOf(t, ds[i].header.end, ds[i].body)
  {
    var hs := ScanHeaders(t, 0);
    seq(|hs|, i requires 0 <= i < |hs| => Declaration(hs[i], BodyAt(t, hs[i].end)))
  }
}

=== FILE: text.dfy ===
/**
  Character classes and string helpers shared by the scanner, the
  classifier and the renderer. Strings are sequences of code points, as
  Python's `str` is. Whitespace follows Python's own definition; word
  characters are restricted to ASCII.
 */
module Text {

  datatype Option<+T> = None | Some(value: T)

  /** `\w`, restricted to ASCII letters, digits and the underscore. */
  predicate IsWordChar(c: char) {
    ('a' <= c <= 'z') || ('A' <= c <= 'Z') || ('0' <= c <= '9') || c == '_'
  }

  /** `\s` and `str.isspace`: the code points Python treats as whitespace. */
  predicate IsSpace(c: char) {
    var n := c as int;
    (9 <= n <= 13) || (28 <= n <= 32) || n == 0x85 || n == 0xA0 || n == 0x1680
    || (0x2000 <= n <= 0x200A) || n == 0x2028 || n == 0x2029 || n == 0x202F
    || n == 0x205F || n == 0x3000
  }

  /** Whether `w` occurs in `s` starting at position `p`. */
  predicate StartsAt(s: string, p: nat, w: string) {
    p + |w| <= |s| && s[p..p + |w|] == w
  }

  /** End of the maximal run of `P`-characters that starts at `i`. */
  function SkipWhile(s: string, i: nat, P: char -> bool): (j: nat)
    requires i <= |s|
    ensures i <= j <= |s|
    ensures forall k :: i <= k < j ==> P(s[k])
    ensures j == |s| || !P(s[j])
    decreases |s| - i
  {
    if i == |s| || !P(s[i]) then i else SkipWhile(s, i + 1, P)
  }

  /** Start of the maximal run of `P`-characters that ends at `j`. */
  function SkipBackWhile(s: string, j: nat, P: char -> bool): (i: nat)
    requires j <= |s|
    ensures i <= j
    ensures forall k :: i <= k < j ==> P(s[k])
    ensures i == 0 || !P(s[i - 1])
  {
    if j == 0 || !P(s[j - 1]) then j else SkipBackWhile(s, j - 1, P)
  }

  /** `s.find(c, i)`: the first index at or after `i` holding `c`. */
  function FindChar(s: string, i: nat, c: char): (r: Option<nat>)
    requires i <= |s|
    ensures r.Some? ==> i <= r.value < |s| && s[r.value] == c
                        && forall k :: i <= k < r.value ==> s[k] != c
    ensures r.None? ==> forall k :: i <= k < |s| ==> s[k] != c
    decreases |s| - i
  {
    if i == |s| then None
    else if s[i] == c then Some(i)
    else FindChar(s, i + 1, c)
  }

  /** `FindChar` reports the first occurrence at or after `i`. */
  lemma {:induction false} FindCharAt(t: string, i: nat, e: nat, c: char)
    requires i <= e < |t| && t[e] == c
    requires forall k :: i <= k < e ==> t[k] != c
    ensures FindChar(t, i, c) == Some(e)
    decreases e - i
  {
    if i < e {
      FindCharAt(t, i + 1, e, c);
    }
  }

  /**
    `s.strip()`: drops leading and trailing whitespace. The result is the
    stretch of `s` left once the whitespace on either side is taken away;
    with `StripAround`, this fixes the result uniquely.
   */
  function Strip(s: string): (r: string)
    ensures |r| <= |s|
    ensures |r| == 0 <==> forall k :: 0 <= k < |s| ==> IsSpace(s[k])
    ensures |r| > 0 ==> !IsSpace(r[0]) && !IsSpace(r[|r| - 1])
    ensures exists i: nat :: PaddedAt(s, i, r)
  {
    var i := SkipWhile(s, 0, IsSpace);
    var j := SkipBackWhile(s, |s|, IsSpace);
    if i < j then
      assert PaddedAt(s, i, s[i..j]);
      s[i..j]
    else
      assert PaddedAt(s, 0, "");
      ""
  }

  /** `r` occurs in `s` at `i` with only whitespace before and after it. */
  predicate PaddedAt(s: string, i: nat, r: string) {
    && i + |r| <= |s| && s[i..i + |r|] == r
    && (forall k :: 0 <= k < i ==> IsSpace(s[k]))
    && (forall k :: i + |r| <= k < |s| ==> IsSpace(s[k]))
  }

  /** Stripping removes exactly the whitespace around a core whose ends are not whitespace. */
  lemma StripAround(pre: string, core: string, post: string)
    requires forall k :: 0 <= k < |pre| ==> IsSpace(pre[k])
    requires forall k :: 0 <= k < |post| ==> IsSpace(post[k])
    requires |core| > 0 && !IsSpace(core[0]) && !IsSpace(core[|core| - 1])
    ensures Strip(pre + core + post) == core
  {
    var s := pre + core + post;
    var i := SkipWhile(s, 0, IsSpace);
    var j := SkipBackWhile(s, |s|, IsSpace);
    assert s[|pre|] == core[0];
    assert s[|pre| + |core| - 1] == core[|core| - 1];
    assert i == |pre|;
    assert j == |pre| + |core|;
    assert s[i..j] == core;
  }

  /** `s.split(sep)` for a one-character separator. */
  function Split(s: string, sep: char): (parts: seq<string>)
    ensures |parts| >= 1
    ensures forall i :: 0 <= i < |parts| ==> sep !in parts[i]
    decreases |s|
  {
    match FindChar(s, 0, sep)
    case None => [s]
    case Some(i) => [s[..i]] + Split(s[i + 1..], sep)
  }

  /** `s[k..]` is the last `sep`-separated word of `s`: it starts at the start of `s` or just after a `sep`, and holds none. */
  predicate LastWordFrom(s: string, k: nat, sep: char) {
    k <= |s| && (k == 0 || s[k - 1] == sep) && sep !in s[k..]
  }

  /** The last piece of a split is the word after the last separator. */
  lemma {:induction false} SplitLast(s: string, sep: char)
    ensures var parts := Split(s, sep);
            exists k: nat :: LastWordFrom(s, k, sep) && parts[|parts| - 1] == s[k..]
    decreases |s|
  {
    hide Split, FindChar;
    match FindChar(s, 0, sep)
    case None =>
      SplitWhole(s, sep);
    case Some(i) =>
      var rest := Split(s[i + 1..], sep);
      SplitCons(s, i, sep);
      SplitLast(s[i + 1..], sep);
      var k: nat :| LastWordFrom(s[i + 1..], k, sep) && rest[|rest| - 1] == s[i + 1..][k..];
      LastWordShift(s, i, k, sep);
  }

  lemma SplitWhole(s: string, sep: char)
    requires FindChar(s, 0, sep).None?
    ensures Split(s, sep) == [s] && LastWordFrom(s, 0, sep) && s[0..] == s
  {
  }

  lemma SplitCons(s: string, i: nat, sep: char)
    requires FindChar(s, 0, sep) == Some(i)
    ensures Split(s, sep) == [s[..i]] + Split(s[i + 1..], sep)
  {
  }

  /** A last word after a separator is a last word of the whole text. */
  lemma LastWordShift(s: string, i: nat, k: nat, sep: char)
    requires i < |s| && s[i] == sep && LastWordFrom(s[i + 1..], k, sep)
    ensures LastWordFrom(s, i + 1 + k, sep) && s[i + 1..][k..] == s[i + 1 + k..]
  {
    assert k > 0 ==> s[i + k] == s[i + 1..][k - 1];
  }

  /** A text has one last word. */
  lemma LastWordUnique(s: string, k1: nat, k2: nat, sep: char)
    requires LastWordFrom(s, k1, sep) && LastWordFrom(s, k2, sep)
    ensures k1 == k2
  {
  }

  /** `s.split(sep)[-1]`. */
  function LastWord(s: string, sep: char): (w: string)
    ensures exists k: nat :: LastWordFrom(s, k, sep) && w == s[k..]
  {
    var parts := Split(s, sep);
    SplitLast(s, sep);
    parts[|parts| - 1]
  }

  /** Wherever the last word starts, `LastWord` is the text from there on. */
  lemma LastWordAt(s: string, sep: char)
    ensures forall k: nat :: LastWordFrom(s, k, sep) ==> LastWord(s, sep) == s[k..]
  {
    var w := LastWord(s, sep);
    var k0: nat :| LastWordFrom(s, k0, sep) && w == s[k0..];
    forall k: nat | LastWordFrom(s, k, sep) ensures LastWord(s, sep) == s[k..] {
      LastWordUnique(s, k, k0, sep);
    }
  }

  /** `sep.join(parts)`. */
  function Join(parts: seq<string>, sep: char): string
  {
    if |parts| == 0 then ""
    else if |parts| == 1 then parts[0]
    else parts[0] + [sep] + Join(parts[1..], sep)
  }

  /** Joining the pieces of a split gives back the original text. */
  lemma {:induction false} JoinSplit(s: string, sep: char)
    ensures Join(Split(s, sep), sep) == s
    decreases |s|
  {
    match FindChar(s, 0, sep)
    case None =>
    case Some(i) =>
      var rest := Split(s[i + 1..], sep);
      assert Split(s, sep) == [s[..i]] + rest;
      JoinSplit(s[i + 1..], sep);
      JoinCons(s[..i], rest, sep);
      assert s == s[..i] + [sep] + s[i + 1..];
  }

  /** Joining a piece in front of at least one more puts one separator between. */
  lemma JoinCons(first: string, rest: seq<string>, sep: char)
    requires |rest| >= 1
    ensures Join([first] + rest, sep) == first + [sep] + Join(rest, sep)
  {
    assert ([first] + rest)[1..] == rest;
  }

  /** Splitting a join gives back the pieces, when no piece holds the separator. */
  lemma {:induction false} SplitJoin(parts: seq<string>, sep: char)
    requires |parts| >= 1
    requires forall i :: 0 <= i < |parts| ==> sep !in parts[i]
    ensures Split(Join(parts, sep), sep) == parts
  {
    if |parts| == 1 {
      assert Join(parts, sep) == parts[0];
      assert FindChar(parts[0], 0, sep).None?;
    } else {
      var s := Join(parts, sep);
      var rest := Join(parts[1..], sep);
      assert s == parts[0] + [sep] + rest;
      assert s[|parts[0]|] == sep;
      assert forall k :: 0 <= k < |parts[0]| ==> s[k] == parts[0][k];
      assert FindChar(s, 0, sep) == Some(|parts[0]|);
      assert s[..|parts[0]|] == parts[0];
      assert s[|parts[0]| + 1..] == rest;
      SplitJoin(parts[1..], sep);
      assert parts == [parts[0]] + parts[1..];
    }
  }

  /** `a` is obtained from `b` by deleting characters. */
  ghost predicate IsSubsequence(a: string, b: string)
    decreases |b|
  {
    |a| == 0
    || (|b| > 0 && ((a[0] == b[0] && IsSubsequence(a[1..], b[1..])) || IsSubsequence(a, b[1..])))
  }

  /** A subsequence of a suffix is a subsequence of the whole. */
  lemma {:induction false} SubsequenceOfSuffix(a: string, front: string, b: string)
    requires IsSubsequence(a, b)
    ensures IsSubsequence(a, front + b)
    decreases |front|
  {
    if |front| > 0 {
      SubsequenceOfSuffix(a, front[1..], b);
      assert (front + b)[1..] == front[1..] + b;
    } else {
      assert front + b == b;
    }
  }
}
